=== FILE: README.md ===
# MIDI control surface: value-to-message pipeline in Dafny

This project models the core of a MIDI control-surface firmware and proves
properties of the model. The firmware has four parts.

- **Control values** (module `Sdhi`, `sdhi.dfy`). Rotary encoders deliver one
  delta per panel slot plus a ninth delta for the panel selector. An integer or
  real control adds its delta and clamps. An enumeration control keeps a signed
  8-bit accumulator and a 24-bit option index packed in one 32-bit entry: three
  ticks in one direction move one option, and at either end the accumulator is
  reset so that it never runs away.
- **Action engine** (module `Action`, `action.dfy`). Each action resolves its
  parameters (constants or control values plus an offset) and turns them into
  zero to three MIDI messages: a controller change, an NRPN, a bank change
  (bank select MSB 127, LSB 0, program change), or an XG parameter change. A
  mapping action writes the note-mapping table instead. Admission against the
  transport's budget is all or nothing. The dispatch scan is round-robin over
  `n - 1` slots from a cursor that persists between cycles, and it stops on
  the first pending action that does not fit, leaving the cursor on it.
- **MIDI transport** (module `Midi`, `midi.dfy`). It has a 16-message outbound
  queue, a budget of `min(free slots, 8)`, a three-byte outbound frame written
  one byte per step, and a three-byte inbound frame with a two-byte shift
  resync. A 128-entry note-mapping table forwards received notes as outbound
  notes.
- **Quadrature step** (module `Quadrature`, `encoder.dfy`). Line A is bit 3 and
  line B is bit 4 of the byte read from the port expander. A rising edge of A
  counts +1 when B is low and -1 when B is high.

`base.dfy` (module `Base`) holds the shared byte type, the `& 0x7F`, `& 0x0F`
and `int8_t` conversions, and an optional-value type.

Hardware inputs are parameters of the model:

- the UART's readable and writable flags;
- the byte received;
- the byte read over I2C;
- the delta vector.

The firmware's `panic` on a full queue is a `Panicked` step result. Its blocking
queue add is a precondition that the queue has room.

Points where the code is easy to misread, modelled as the code does them:

- Admission is strict: a batch is queued only if its count is *below* the
  budget (`messages < midi_can_send_messages()`), not at most the budget. A
  bank change therefore needs four free slots.
- A parameter that references a real control resolves to -1, the initial
  value of `parameter_value`. It does not resolve to the control's scaled
  value.
- The (N)RPN encoder always emits an NRPN message.
- `midi_write_message` loads a wire frame only for note-on, note-off and raw
  messages. Controller, program-change, NRPN and exclusive messages are popped
  from the queue and never reach the wire.
- Start-up makes one pass in which every action is executed. The firmware
  sleeps and retries an action that is not admitted. The model stops there
  and reports the index (`waitingAt`).

Three defects of the code are recorded under "## Findings". Each is modelled
as written, next to a corrected definition, and the rest of the model uses
the corrected one: the note-mapping table has 128 entries, an XG parameter
change sends all four payload bytes, and start-up begins at the first action.

## Model

| member | source | states |
|---|---|---|
| Sdhi.Clamp | sdhi/sdhi.c:52-61 | With `min <= max` the result lies in `[min, max]`. It is exactly `value + change` when the sum is in range, `min` below the range and `max` above it. |
| Sdhi.PackRoundTrip | sdhi/sdhi.c:73-89 | Unpacking `(acc << 24) + index` gives back the int8 accumulator (`(v >> 24) & 0xFF` read as `int8_t`) and the 24-bit index (`v & 0xFFFFFF`). |
| Sdhi.PackBitsRoundTrip | sdhi/sdhi.c:73-89 | The same round trip on 32-bit words with shifts and masks. |
| Sdhi.StepDial | sdhi/sdhi.c:72-89 | After a step the accumulator is in `[-2, 2]`. An index in `[0, size-1]` stays there and moves by at most one. At index 0 with a negative sum, and at the last index with a positive sum, the accumulator resets to 0 and the index is unchanged. |
| Sdhi.StepDialThreshold | sdhi/sdhi.c:76-88 | For an accumulator in `[-2, 2]` and a delta in `[-125, 125]`, where the int8 addition cannot wrap: the index rises exactly when the accumulated ticks reach +3 below the last option. It falls exactly when they reach -3 above the first. Otherwise it stays and the accumulator holds the sum, reset at the ends. Outside that window the int8 wrap decides, and StepDial states it. |
| Sdhi.UpdateEnumeration | sdhi/sdhi.c:71-90 | On the packed entry: the unpacked accumulator and index after the update are exactly one hysteresis step (`StepDial`) of the unpacked ones. So the accumulator stays in `[-2, 2]` and the index stays on an option, moving by at most one. |
| Sdhi.TicksAdvanceEveryThird | sdhi/sdhi.c:82-88 | `n` successive +1 deltas from a zero accumulator advance the index by `n / 3`, capped at the last option. The leftover ticks stay in the accumulator. |
| Sdhi.ThreeTicksOneOption | sdhi/sdhi.c:82-84 | One or two ticks do not move the index; the third tick moves it one option. |
| Sdhi.NoRunawayAtFirstOption | sdhi/sdhi.c:76-77 | Any number of -1 deltas at the first option leaves the accumulator at 0 and the index at 0. |
| Sdhi.UpdateControl | sdhi/sdhi.c:63-69 | Dispatch by control type. An integer or real value becomes `value + change` clamped to its bounds: exactly the sum in range, the bound outside it. An enumeration takes one hysteresis step of its unpacked accumulator and index. Ranges are kept. |
| Sdhi.PackedThreeTicks | sdhi/sdhi.c:71-90 | On the stored entry: from option `i` with a zero accumulator, two +1 deltas keep the option (accumulator 1, then 2) and the third moves to option `i + 1` with the accumulator reset. |
| Sdhi.FindFrom | sdhi/sdhi.c:43-50 | Returns the first position at or after `from` with the given id. `None` means no control from `from` on has it. |
| Sdhi.FindControl | sdhi/sdhi.c:43-50 | Returns the first control with the id, or `None` exactly when no control has it. |
| Sdhi.UpdateValues | sdhi/sdhi.c:111-113 | The panel selector changes only on a non-zero ninth delta. It is `panel + delta` clamped to the existing panels. |
| Sdhi.UpdateValuesFrame | sdhi/sdhi.c:92-110 | Only entries of controls that a slot of the current panel names with a non-zero delta change. Empty or unknown slots touch nothing. |
| Sdhi.EmptySlotFindsNothing | sdhi/sdhi.c:94-95 | The empty-slot id -1 never finds a control. |
| Sdhi.UpdateValuesKeepsRanges | sdhi/sdhi.c:92-110 | Any delta vector keeps every integer value within its bounds and every enumeration index on an option. |
| Sdhi.UpdateValuesAppliesEachSlot | sdhi/sdhi.c:93-108 | When no control appears in two slots, each slot with a found control and a non-zero delta applies exactly one type-specific update to that control's previous value. |
| Sdhi.Init | sdhi/sdhi.c:39-41 | Start-up selects the first panel. |
| Sdhi.InitValues | sdhi/sdhi.c:125-140 | Entries that no control names are unchanged. Every other entry keeps its value or takes the initial value of a control with that id. When ids are distinct, every control's entry holds its initial value (0 for a real control). |
| Sdhi.InitValuesSets | sdhi/sdhi.c:125-140 | Initialisation gives integer and enumeration controls their initial value and real controls 0. It leaves every entry that is not a control id alone. |
| Sdhi.InitValuesEstablishesRanges | sdhi/sdhi.c:125-140 | On a well-formed configuration, initialisation establishes the value invariant. |
| Sdhi.IntegerValue | sdhi/sdhi.c:142-144 | Under the value invariant an integer control's value lies within its bounds. |
| Sdhi.EnumerationValue | sdhi/sdhi.c:149-151 | The result is the value of one of the control's options. |
| Sdhi.IntegerSaturates | sdhi/sdhi.c:63-65 | A control with bounds 0..127 saturates: at 100, +50 gives 127; at 127, -200 gives 0; in range, 100 - 30 gives 70. |
| Midi.Init | midi/midi.c:90-99 | Start-up gives an empty queue, no frame to write, the inbound position at 0 and every note unmapped. |
| Midi.CanSend | midi/midi.c:173-175 | The budget never exceeds 8 and never exceeds the free slots, and it equals one of the two. |
| Midi.SendMessages | midi/midi.c:177-181 | The batch is appended after the queued messages, in order. Nothing but the queue changes. |
| Midi.SetMappedNote | midi/midi.c:183-189 | Entry `note & 0x7F` now holds the target. Every other entry and all other state are unchanged. |
| Midi.ClearMappedNote | midi/midi.c:190-192 | Entry `note & 0x7F` is unmapped and every other entry is unchanged. |
| Midi.ClearAfterSet | midi/midi.c:183-192 | Clearing after setting leaves the entry unmapped, whatever it was set to. |
| Midi.SetMappedNoteAsWritten | midi/midi.c:183-189 | On the firmware's table, the write is out of bounds exactly when `note & 0x7F` is not below the table length. |
| Midi.MappingTableOneShort | midi/midi.c:83-99 | With the firmware's 127-entry table, exactly the notes whose low seven bits are 127 write out of bounds. |
| Midi.NoteFrame | midi/midi.c:51-57 | The wire layout of a note on any channel. The status byte carries the status nibble and `channel & 0x0F`. The second byte is `note & 0x7F` and the third `velocity & 0x7F`. |
| Midi.WireFrame | midi/midi.c:67-81 | A three-byte frame exists exactly for note-on, note-off and raw messages. A note goes out as `[status + (channel & 0x0F), note & 0x7F, velocity & 0x7F]` with status 0x90 or 0x80. A raw message goes out as its three bytes unchanged. |
| Midi.WriteMessage | midi/midi.c:46-81 | For an encodable message, the outbound frame is loaded and the cursor rewound. For any other message the transport is unchanged. Queue, inbound state and mapping are unchanged either way. |
| Midi.DecodeFrame | midi/midi.c:26-34 | A frame decodes exactly when its first byte is 0x80 or 0x90. The result is a note on channel 0 with seven-bit fields. |
| Midi.NoteRoundTrip | midi/midi.c:26-57 | Decoding the wire frame of a channel-0 note gives the note back with masked fields. A note on any other channel is not recognised. |
| Midi.MapNote | midi/midi.c:107-119 | The forwarded note keeps the received kind and velocity and takes the mapped note and channel. |
| Midi.Receive | midi/midi.c:122-154 | Bytes accumulate until the third. A note frame forwards the mapped note if the note is mapped, or panics on a full queue, and restarts the frame. Any other frame shifts by one byte. |
| Midi.Transmit | midi/midi.c:155-162 | The write branch leaves the inbound frame, the position and the mapping unchanged. |
| Midi.Run | midi/midi.c:121-163 | A step reads if a byte is available. Otherwise it writes the next frame byte if writable. Otherwise, once the frame is done, it pops the oldest message and loads its frame. The queue changes only by that pop. |
| Midi.ReceiveNoteFrame | midi/midi.c:124-145 | A whole note frame forwards exactly the mapped note, or nothing when the note is unmapped, and restarts the frame. |
| Midi.StrayByteResyncs | midi/midi.c:146-150 | One stray byte before a note frame is absorbed. The note is forwarded as if the stray byte had not arrived. |
| Midi.BusyLinkStep | midi/midi.c:155-162 | With nothing received and the link busy, a step writes nothing. It either changes nothing or pops exactly as a step on a writable link would. Once the frame is done it is the same step. |
| Midi.DrainSplit | midi/midi.c:155-162 | Draining `a + b` steps is draining `a` steps and then `b`. The wire bytes are the two runs concatenated. |
| Midi.DrainFrame | midi/midi.c:155-157 | A loaded frame leaves on the wire in three writable steps, byte by byte in order. |
| Midi.DrainOne | midi/midi.c:155-162 | One message takes a pop and then one step per frame byte. The bytes on the wire are its frame, or nothing for a type without one. |
| Midi.DrainQueue | midi/midi.c:155-162 | FIFO: with a writable link and nothing received, the queue leaves the wire as the frames of its note and raw messages in queue order, and the queue ends empty. |
| Action.Settled | action/action.c:6-12 | `value_eq`, which compares the three fields one by one, holds exactly when the computed and sent values are equal. |
| Action.Settle | action/action.c:142 | After a dispatch, sent equals computed (`value_eq` holds) and the computed value is unchanged. |
| Action.ValuesOkMakesResolvable | action/action.c:147-167 | Under the control-value invariant, any reference to an existing control can be resolved. |
| Action.ParameterValue | action/action.c:147-167 | A constant resolves to itself and a reference to a real control to -1. |
| Action.ResolvedParameterRange | action/action.c:147-167 | An integer reference resolves to the stored value plus the offset, so it lies within the bounds plus the offset. An enumeration reference resolves to the selected option (`value & 0xFFFFFF`) plus the offset, one of the option values. A real reference resolves to -1 and a constant to itself. |
| Action.ParameterReadsOnlyItsControl | action/action.c:147-167 | A parameter reads only its own control's entry. Two value arrays that agree there resolve it alike. |
| Action.ComputeValue | action/action.c:171-197 | The fields an action's kind does not use are 0: `v3` except for NRPN, and `v2` for a bank change. |
| Action.ComputedMessages | action/action.c:169-200 | From parameters to messages. The controller number and value, the NRPN MSB, LSB and value, the program and the XG parameter and value each go into their own message field, masked to seven bits. A mapping's note and target go into the table write. |
| Action.UpdateComputedValues | action/action.c:169-200 | Every action's computed value is refreshed from the controls. No sent value changes. |
| Action.EncodeController | action/action.c:18-29 | One controller change on `channel & 0x7F` with number `v1 & 0x7F` and value `v2 & 0x7F`. |
| Action.EncodeNrpn | action/action.c:32-44 | The (N)RPN encoder emits one NRPN message on `channel & 0x7F` with MSB, LSB and value the low seven bits of `v1`, `v2` and `v3`. |
| Action.EncodeBankChange | action/action.c:68-96 | Three messages in order: bank select MSB 127, bank select LSB 0, then a program change to program `v1 & 0x7F`, all on `channel & 0x7F`. |
| Action.EncodeXgAsWritten | action/action.c:46-66 | As written: one exclusive message to manufacturer 0x43 on `channel & 0x7F` with data `[0x08, channel & 0x7F, v1 & 0x7F]`, without the value byte. |
| Action.EncodeXg | action/action.c:49-58 | Corrected: the same message with a fourth data byte `v2 & 0x7F`, so all four prepared bytes are sent. |
| Action.XgAsWrittenDropsValue | action/action.c:59-62 | As written, two values that differ only in the value field give the same message. The corrected encoding distinguishes them. |
| Action.Encode | action/action.c:102-121 | Message counts per kind: controller 1, bank change 3, NRPN 1, mapping 0, XG 1. Every field fits in seven bits, and every message is on the action's masked channel. A controller change carries `v1 & 0x7F` and `v2 & 0x7F`. A bank change is CC 0 = 127, then CC 32 = 0, then program `v1 & 0x7F`. An NRPN carries the three masked fields. An XG change is an exclusive message to manufacturer 0x43 with data `[0x08, channel & 0x7F, v1 & 0x7F, v2 & 0x7F]`. |
| Action.EncodeRoundTrip | action/action.c:18-96 | For any value whose unused fields are 0, reading an action's messages back gives the low seven bits of each field, so the fields come back exactly when they fit in seven bits. |
| Action.EffectOf | action/action.c:98-121 | Only a mapping action writes the table, and the message count matches the kind. |
| Action.Admit | action/action.c:122-127 | All or nothing. The batch is queued exactly when its count is below the budget, and then the queue stays below capacity. Otherwise the queue is unchanged. The table write happens either way, and the wire state is untouched. |
| Action.ExecuteAction | action/action.c:102-128 | Admission holds exactly when the kind's message count is below the budget, and the queue gains exactly the encoded messages. A mapping action sets entry `v1 & 0x7F` to `(v2 & 0x7F, channel & 0x7F)` whether or not it is admitted. Nothing else changes. |
| Action.BankChangeNeedsFourFreeSlots | action/action.c:111-127 | A bank change is admitted exactly when four queue slots are free. Otherwise the transport is unchanged. |
| Action.MappingWritesEvenWhenFull | action/action.c:114-117 | On a full queue a mapping action is refused, but its table write still happens. |
| Action.Next | action/action.c:138 | The next cursor stays in the ring. |
| Action.NextIsModular | action/action.c:138 | The cursor step is the firmware's `(c + 1) % n`. |
| Action.FirstAttempt | action/action.c:139-143 | A settled slot passes without queueing. A pending one queues its messages or is refused with the queue unchanged and a count not below the budget. |
| Action.Scan | action/action.c:138-144 | The scan completes `done` slots in ring order. Without a stall `done` is the whole allowance. With a stall the cursor rests on a pending action whose count is not below the budget. The wire state is untouched. |
| Action.ScanSettles | action/action.c:138-144 | Exactly the completed slots are settled and every other value is unchanged. |
| Action.ScanQueues | action/action.c:138-144 | The queue gains exactly the completed slots' pending messages, one batch per action in visiting order. |
| Action.ScanCycle | action/action.c:130-144 | A cycle visits `n - 1` slots. Without a stall the cursor ends on the slot before its start. A stall leaves it on the action that did not fit. |
| Action.CycleSettles | action/action.c:138-144 | A cycle settles exactly the slots it completed. |
| Action.CycleQueues | action/action.c:138-144 | A cycle queues exactly the completed slots' pending messages in ring order. |
| Action.ExecuteActions | action/action.c:130-145 | Each value is either untouched or settled, and computed values never change. Without a stall the cursor ends before its start. A stall leaves the cursor on a pending, untouched action whose message count is not below the budget. |
| Action.ExecuteActionsSettles | action/action.c:130-145 | The settled actions are exactly the `done` slots from the cursor in ring order. The rest are untouched. |
| Action.ExecuteActionsQueues | action/action.c:130-145 | The queue gains exactly the settled slots' encoded messages, one batch per action in ring order from the cursor. |
| Action.IdleCycle | action/action.c:138-144 | A cycle over settled actions leaves values and transport unchanged. |
| Action.IdleCycleIsNoOp | action/action.c:139-142 | With nothing pending, a cycle queues nothing, changes nothing and does not stall. |
| Action.SingleActionDispatchesNothing | action/action.c:132-138 | With one action the scan's last slot is its first, so nothing is dispatched, pending or not. |
| Action.StalledActionRetriedFirst | action/action.c:138-144 | Fairness under backpressure: the action a cycle stalled on is tried first in the next cycle. Once the budget admits it, it is settled and its messages are the first queued. |
| Action.ActionUpdate | action/action.c:213-216 | After an update every computed value is freshly resolved, and each sent value is either the old one or caught up. |
| Action.InitFrom | action/action.c:205-210 | One start-up pass from index `i` settles every action from `i` on and leaves those before `i` alone. If it stops, it stops at the first action whose count is not below the budget, which stays pending along with those after it. |
| Action.UninitialisedIndexSkipsActions | action/action.c:205 | Started past the last action, as the uninitialised loop index permits, start-up sends nothing and every pending action stays pending. |
| Action.InitFromWithRoom | action/action.c:205-210 | With room for every message, the pass completes and queues every batch in table order. |
| Action.ActionInit | action/action.c:202-211 | The cursor restarts at 0. If the pass completes, every action is settled with its freshly computed value. Otherwise it stops on an action whose count is not below the budget. |
| Action.ActionInitWithRoom | action/action.c:202-211 | With room in the queue, start-up completes and queues every action's messages in table order. |
| Quadrature.ABit | i2c_controller/i2c_controller.c:30 | Line A's level is a single bit. |
| Quadrature.BBit | i2c_controller/i2c_controller.c:31 | Line B's level is a single bit. |
| Quadrature.LinesDecode | i2c_controller/i2c_controller.c:30-31 | A is bit 3 and B is bit 4 of the byte read. The other six bits do not matter. |
| Quadrature.Sample | i2c_controller/i2c_controller.c:30-40 | `old_a` becomes A. The count changes exactly on a rising edge of A: up exactly when B is low, otherwise down, and by exactly one. |
| Quadrature.StaleReadCountsNothing | i2c_controller/i2c_controller.c:28-40 | Re-sampling the same byte, as after a failed read that leaves the buffer as it was, counts nothing more. |
| Quadrature.SampleAll | i2c_controller/i2c_controller.c:30-40 | After successive polls `old_a` is the last A level seen. |
| Quadrature.ClockwiseTurns | i2c_controller/i2c_controller.c:32-36 | `n` clockwise Gray cycles from rest add exactly `n`. |
| Quadrature.CounterClockwiseTurns | i2c_controller/i2c_controller.c:32-35 | `n` counter-clockwise Gray cycles from rest subtract exactly `n`. |
| Quadrature.HeldHighCountsNothing | i2c_controller/i2c_controller.c:32-39 | With A held high after a high level was seen, nothing counts. |
| Quadrature.PowerUpWithAHigh | i2c_controller/i2c_controller.c:11-12 | Because the power-up state remembers A as high, polls with A high leave the count at 0. |
| Quadrature.CountBound | i2c_controller/i2c_controller.c:32-39 | A detent needs a low sample and then a high one, so `n` polls change the count by at most `(n + 1 - old_a) / 2`. |

## Left out

- Display code (fonts, PIO and DMA, drawing, `find_group`, `control_index`): it is hardware and UI output with no logical contract.
- Floating point: `sdhi_real` is not modelled. A real control's bounds are kept as the integers `(int32_t)(min / step)` and `(int32_t)(max / step)`, which the firmware computes from floats.
- Hardware I/O is not modelled. This covers UART and I2C setup and transactions, `uart_read_blocking`, `uart_putc`, the I2C write and read, and `printf`. The bytes read and the readable and writable flags are inputs.
- Concurrency is not modelled: the two cores and the thread safety of `queue_t`. The queue is a single-threaded sequence.
- `midi_get_available_messages` and the inbound queue are not modelled, because nothing ever fills that queue.
- `src/main.c` is not part of this model. It is the top-level composition, and it calls functions the transport no longer has.
- `i2c_controller_update`, which fills the delta vector, is not part of this model. The delta vector is an input of `Sdhi.UpdateValues`.
- `sdhi_type` is not part of this model. The type is taken from the control that `find_control` returns.
- Sdhi.FindControl: the model searches the whole table with unbounded integers. The firmware's loop index is `uint8_t`, so with more than 255 controls a search for an absent id never ends. This includes every empty slot (id -1). Its `int16_t` id parameter also truncates ids of 32768 and above. The model assumes at most 255 controls and ids below 32768, where the two agree.
- Action.ParameterValue: `value + offset` is computed on unbounded integers, without the firmware's int32 wrap-around. Every message field and table write masks the result with `& 0x7F`, and 2^32 is a multiple of 128, so those agree. Only the `value_eq` comparison could differ, and only for two results exactly a multiple of 2^32 apart.
- Sdhi.Clamp: `value + change` is computed on unbounded integers. The model omits int32 overflow, which is undefined behaviour in C.
- Quadrature.Sample: the count is unbounded. The model omits int32 overflow, which takes 2^31 net detents.
- Action.ParameterValue requires that a control reference names an existing control and, for an enumeration, a stored index on an option. The firmware dereferences NULL or reads past the option array otherwise, which is undefined behaviour.
- Sdhi.EnumerationValue requires a found enumeration control with an index on an option, for the same reason.
- Action.ExecuteActions requires at least one action. With none, the firmware computes `(0 + 1) % 0`.
- Action.ActionInit models one start-up pass, not the `sleep_ms` retry loop. That loop can only end once the other core drains the queue, so the pass stops at the first refused action and reports it.
- Midi.SendMessages requires room for the whole batch instead of blocking in `queue_add_blocking`. Admission only calls it with a count below the budget.
- Action.Encode: for an XG parameter change the engine queues the corrected exclusive message with all four payload bytes (`Action.EncodeXg`), where the firmware queues three. The three-byte message is `Action.EncodeXgAsWritten`. The corrected payload is used so that the value the action carries reaches the queue; see "## Findings".
- Midi.Drain counts steps with an always-writable link and no input. A step on a busy link either changes nothing or pops exactly as a writable step would (`Midi.BusyLinkStep`), so the drain lemmas describe every output order.

## Findings

| source | as written | input that shows it | evidently intended | confidence | as-written member | corrected member |
|---|---|---|---|---|---|---|
| midi/midi.c:83-88 | The mapping table has 127 entries, but it is indexed with `note & 0x7F` when set, cleared and read. | `midi_set_mapped_note(127, 0, 60)`, or receiving a note-on for note 127, indexes `mapping[127]`, one past the end. | One entry per seven-bit note: 128 entries. | high (not executed) | Midi.MappingTableOneShort | Midi.SetMappedNote |
| action/action.c:59-62 | The XG parameter change prepares four payload bytes, but `data_size = 3` copies only three, so the value byte is never sent. | Values `(p, 0)` and `(p, 64)` for the same parameter produce identical exclusive messages. | `data_size = 4`, sending address bytes 0x08, channel and parameter, then the value. | high (not executed) | Action.XgAsWrittenDropsValue | Action.EncodeXg |
| action/action.c:205 | The start-up loop index `i` is declared without an initial value. | Any stack contents of at least the action count: the loop body never runs and no action is sent at start-up. | `for(uint8_t i = 0; ...)`, sending every action once from the first. | medium (not executed) | Action.UninitialisedIndexSkipsActions | Action.ActionInit |

=== FILE: action.dfy ===
/** The action engine: a table of actions, each turning resolved parameter
    values into zero to three MIDI messages (or a note-mapping write), a
    parallel table of computed and last-sent values, all-or-nothing admission
    against the transport's budget, and a round-robin dispatch scan whose
    cursor persists between cycles. */
module Action {
  import opened Base
  import Sdhi
  import Midi

  /** Three resolved fields; which of them an action uses depends on its kind. */
  datatype Value = Value(v1: int, v2: int, v3: int)

  /** What was last computed for an action, and what was last sent. */
  datatype ActionValue = ActionValue(computed: Value, sent: Value)

  /** `value_eq`: nothing is pending when all three computed fields equal the
      sent ones (`v_eq`). */
  predicate Settled(av: ActionValue)
    ensures Settled(av) <==> av.computed == av.sent
  {
    av.computed.v1 == av.sent.v1 && av.computed.v2 == av.sent.v2 && av.computed.v3 == av.sent.v3
  }

  /** The action's value after a successful dispatch: sent catches up. */
  function Settle(av: ActionValue): (r: ActionValue)
    ensures Settled(r) && r.computed == av.computed
  {
    av.(sent := av.computed)
  }

  /** A constant, or a control's resolved value plus an offset. */
  datatype Parameter = FromControl(id: int, offset: int) | Constant(value: int)

  datatype ActionKind =
    | Controller(number: Parameter, value: Parameter)
    | BankChange(program: Parameter)
    | Nrpn(msb: Parameter, lsb: Parameter, value: Parameter)
    | Mapping(note: Parameter, target: Parameter)
    | XgParameterChange(parameter: Parameter, value: Parameter)

  datatype Action = Action(channel: Byte, kind: ActionKind)

  // ---------------------------------------------------------------------------
  // Resolving parameters

  /** What `parameter_value` needs of a control reference: an id that indexes
      the value array and names a control, and, for an enumeration, a stored
      index naming one of its options. */
  ghost predicate Resolvable(config: Sdhi.Config, values: seq<int>, p: Parameter)
  {
    p.FromControl? ==>
      && 0 <= p.id < |values|
      && Sdhi.FindControl(config.controls, p.id).Some?
      && (Sdhi.FindControl(config.controls, p.id).value.kind.Enumeration? ==>
            Sdhi.Index(values[p.id]) < |Sdhi.FindControl(config.controls, p.id).value.kind.options|)
  }

  ghost predicate ActionResolvable(config: Sdhi.Config, values: seq<int>, a: Action)
  {
    match a.kind
    case Controller(number, value) => Resolvable(config, values, number) && Resolvable(config, values, value)
    case BankChange(program) => Resolvable(config, values, program)
    case Nrpn(msb, lsb, value) =>
      Resolvable(config, values, msb) && Resolvable(config, values, lsb) && Resolvable(config, values, value)
    case Mapping(note, target) => Resolvable(config, values, note) && Resolvable(config, values, target)
    case XgParameterChange(parameter, value) => Resolvable(config, values, parameter) && Resolvable(config, values, value)
  }

  /** `parameter_value`: a constant as is; an integer control's value or an
      enumeration's selected option value, plus the offset; -1 for a real
      control, which the firmware leaves unresolved. */
  function ParameterValue(config: Sdhi.Config, values: seq<int>, p: Parameter): (r: int)
    requires Resolvable(config, values, p)
    ensures p.Constant? ==> r == p.value
    ensures p.FromControl? && Sdhi.FindControl(config.controls, p.id).value.kind.Real? ==> r == -1
  {
    match p
    case Constant(v) => v
    case FromControl(id, offset) =>
      match Sdhi.FindControl(config.controls, id).value.kind
      case Integer(_, _, _) => Sdhi.IntegerValue(config, values, id) + offset
      case Enumeration(_, _) => Sdhi.EnumerationValue(config, values, id) + offset
      case Real(_, _) => -1
  }

  /** The value invariant of the control model makes every reference to an
      existing control resolvable. */
  lemma ValuesOkMakesResolvable(config: Sdhi.Config, values: seq<int>, p: Parameter)
    requires Sdhi.IdsIndex(config, |values|) && Sdhi.ValuesOk(config, values)
    requires p.FromControl? ==> 0 <= p.id && Sdhi.FindControl(config.controls, p.id).Some?
    ensures Resolvable(config, values, p)
  {
  }

  /** Under the value invariant a resolved parameter is the constant, lies
      within an integer control's bounds shifted by the offset, is one of an
      enumeration's option values shifted by the offset, or is -1 for a real
      control. */
  lemma ResolvedParameterRange(config: Sdhi.Config, values: seq<int>, p: Parameter)
    requires Sdhi.IdsIndex(config, |values|) && Sdhi.ValuesOk(config, values)
    requires Resolvable(config, values, p)
    ensures p.Constant? ==> ParameterValue(config, values, p) == p.value
    ensures p.FromControl? ==>
              var kind := Sdhi.FindControl(config.controls, p.id).value.kind;
              var r := ParameterValue(config, values, p);
              && (kind.Integer? ==> kind.min + p.offset <= r <= kind.max + p.offset)
              && (kind.Enumeration? ==> exists k :: 0 <= k < |kind.options| && r == kind.options[k].value + p.offset)
              && (kind.Real? ==> r == -1)
    ensures p.FromControl? ==>
              var kind := Sdhi.FindControl(config.controls, p.id).value.kind;
              var r := ParameterValue(config, values, p);
              && (kind.Integer? ==> r == values[p.id] + p.offset)
              && (kind.Enumeration? ==> r == kind.options[Sdhi.Index(values[p.id])].value + p.offset)
  {
    if p.FromControl? {
      var kind := Sdhi.FindControl(config.controls, p.id).value.kind;
      if kind.Enumeration? {
        var k := Sdhi.Index(values[p.id]);
        assert ParameterValue(config, values, p) == kind.options[k].value + p.offset;
      }
    }
  }

  /** A parameter reads nothing but its own control's entry: two value arrays
      that agree there resolve it alike. */
  lemma ParameterReadsOnlyItsControl(config: Sdhi.Config, values: seq<int>, values': seq<int>, p: Parameter)
    requires Resolvable(config, values, p)
    requires p.FromControl? ==> 0 <= p.id < |values'| && values'[p.id] == values[p.id]
    ensures Resolvable(config, values', p)
    ensures ParameterValue(config, values', p) == ParameterValue(config, values, p)
  {
  }

  /** One entry of `update_computed_values`: the fields an action's kind uses
      are resolved, the others are 0. */
  function ComputeValue(config: Sdhi.Config, values: seq<int>, a: Action): (r: Value)
    requires ActionResolvable(config, values, a)
    ensures !a.kind.Nrpn? ==> r.v3 == 0
    ensures a.kind.BankChange? ==> r.v2 == 0
  {
    match a.kind
    case Controller(number, value) => Value(ParameterValue(config, values, number), ParameterValue(config, values, value), 0)
    case Nrpn(msb, lsb, value) =>
      Value(ParameterValue(config, values, msb), ParameterValue(config, values, lsb), ParameterValue(config, values, value))
    case BankChange(program) => Value(ParameterValue(config, values, program), 0, 0)
    case Mapping(note, target) => Value(ParameterValue(config, values, note), ParameterValue(config, values, target), 0)
    case XgParameterChange(parameter, value) =>
      Value(ParameterValue(config, values, parameter), ParameterValue(config, values, value), 0)
  }

  /** `update_computed_values`: every action's computed value is refreshed;
      what was sent is left alone. */
  function UpdateComputedValues(config: Sdhi.Config, values: seq<int>, actions: seq<Action>, avs: seq<ActionValue>): (r: seq<ActionValue>)
    requires |avs| == |actions|
    requires forall i :: 0 <= i < |actions| ==> ActionResolvable(config, values, actions[i])
    ensures |r| == |avs|
    ensures forall i :: 0 <= i < |r| ==> r[i].sent == avs[i].sent
    ensures forall i :: 0 <= i < |r| ==> r[i].computed == ComputeValue(config, values, actions[i])
  {
    seq(|avs|, i requires 0 <= i < |avs| => ActionValue(ComputeValue(config, values, actions[i]), avs[i].sent))
  }

  // ---------------------------------------------------------------------------
  // Encoding an action

  /** Yamaha's manufacturer id, the prefix of an XG parameter change. */
  const XG_MANUFACTURER: Midi.Word := 0x43
  /** First address byte of an XG multi-part parameter. */
  const XG_MULTI_PART: Byte := 0x08
  /** Bank-select MSB and LSB controller numbers, and the MSB value sent. */
  const BANK_SELECT_MSB: Byte := 0
  const BANK_SELECT_LSB: Byte := 32
  const BANK_MSB_VALUE: Byte := 127

  /** How many messages each kind emits. */
  function MessageCount(kind: ActionKind): nat
  {
    match kind
    case Controller(_, _) => 1
    case BankChange(_) => 3
    case Nrpn(_, _, _) => 1
    case Mapping(_, _) => 0
    case XgParameterChange(_, _) => 1
  }

  /** One controller change: controller number `v1 & 0x7F`, value
      `v2 & 0x7F`. */
  function EncodeController(channel: Byte, value: Value): (r: seq<Midi.Message>)
    ensures |r| == 1 && r[0].ControllerChange? && r[0].channel == Low7(channel)
    ensures r[0].number == Low7(value.v1) && r[0].value == Low7(value.v2)
  {
    [Midi.ControllerChange(Low7(channel), Low7(value.v1), Low7(value.v2))]
  }

  /** The (N)RPN encoder always produces an NRPN message. */
  function EncodeNrpn(channel: Byte, value: Value): (r: seq<Midi.Message>)
    ensures |r| == 1 && r[0].Nrpn? && r[0].channel == Low7(channel)
    ensures r[0].msb == Low7(value.v1) && r[0].lsb == Low7(value.v2) && r[0].value == Low7(value.v3)
  {
    [Midi.Nrpn(Low7(channel), Low7(value.v1), Low7(value.v2), Low7(value.v3))]
  }

  /** Bank select MSB 127, bank select LSB 0, then the program change, in that
      order. */
  function EncodeBankChange(channel: Byte, value: Value): (r: seq<Midi.Message>)
    ensures |r| == 3
    ensures r[0] == Midi.ControllerChange(Low7(channel), BANK_SELECT_MSB, BANK_MSB_VALUE)
    ensures r[1] == Midi.ControllerChange(Low7(channel), BANK_SELECT_LSB, 0)
    ensures r[2].ProgramChange? && r[2].channel == Low7(channel) && r[2].number == Low7(value.v1)
  {
    [ Midi.ControllerChange(Low7(channel), BANK_SELECT_MSB, BANK_MSB_VALUE),
      Midi.ControllerChange(Low7(channel), BANK_SELECT_LSB, 0),
      Midi.ProgramChange(Low7(channel), Low7(value.v1)) ]
  }

  /** The XG parameter change as the firmware builds it: four payload bytes
      are prepared but only the first three are copied, so the value byte is
      lost. */
  function EncodeXgAsWritten(channel: Byte, value: Value): (r: seq<Midi.Message>)
    ensures |r| == 1 && r[0].Exclusive? && |r[0].data| == 3
    ensures r[0].channel == Low7(channel) && r[0].manufacturer == XG_MANUFACTURER
    ensures r[0].data == [XG_MULTI_PART, Low7(channel), Low7(value.v1)]
  {
    var data := [XG_MULTI_PART, Low7(channel), Low7(value.v1), Low7(value.v2)];
    [Midi.Exclusive(Low7(channel), XG_MANUFACTURER, data[..3])]
  }

  /** The XG parameter change with its whole payload: address bytes 0x08,
      channel and parameter, then the value. */
  function EncodeXg(channel: Byte, value: Value): (r: seq<Midi.Message>)
    ensures |r| == 1 && r[0].Exclusive? && |r[0].data| == 4
    ensures r[0].channel == Low7(channel) && r[0].manufacturer == XG_MANUFACTURER
    ensures r[0].data[..3] == EncodeXgAsWritten(channel, value)[0].data && r[0].data[3] == Low7(value.v2)
  {
    [Midi.Exclusive(Low7(channel), XG_MANUFACTURER, [XG_MULTI_PART, Low7(channel), Low7(value.v1), Low7(value.v2)])]
  }

  /** As written, two values that differ only in the value field encode to the
      same message, so the receiver never learns the value; the corrected
      encoding tells them apart. */
  lemma XgAsWrittenDropsValue(channel: Byte, parameter: int, x: int, y: int)
    ensures EncodeXgAsWritten(channel, Value(parameter, x, 0)) == EncodeXgAsWritten(channel, Value(parameter, y, 0))
    ensures Low7(x) != Low7(y) ==> EncodeXg(channel, Value(parameter, x, 0)) != EncodeXg(channel, Value(parameter, y, 0))
  {
    var prefix := [XG_MULTI_PART, Low7(channel), Low7(parameter)];
    assert [XG_MULTI_PART, Low7(channel), Low7(parameter), Low7(x)][..3] == prefix;
    assert [XG_MULTI_PART, Low7(channel), Low7(parameter), Low7(y)][..3] == prefix;
    assert EncodeXg(channel, Value(parameter, x, 0))[0].data[3] == Low7(x);
  }

  /** Every field of a message the engine emits fits in seven bits. */
  ghost predicate SevenBit(m: Midi.Message)
  {
    match m
    case ControllerChange(channel, number, value) => channel < 0x80 && number < 0x80 && value < 0x80
    case NoteOn(channel, note, velocity) => channel < 0x80 && note < 0x80 && velocity < 0x80
    case NoteOff(channel, note, velocity) => channel < 0x80 && note < 0x80 && velocity < 0x80
    case ProgramChange(channel, number) => channel < 0x80 && number < 0x80
    case Rpn(channel, msb, lsb, value) => channel < 0x80 && msb < 0x80 && lsb < 0x80 && value < 0x80
    case Nrpn(channel, msb, lsb, value) => channel < 0x80 && msb < 0x80 && lsb < 0x80 && value < 0x80
    case Exclusive(channel, manufacturer, data) => channel < 0x80 && forall i :: 0 <= i < |data| ==> data[i] < 0x80
    case Raw(x, y, z) => x < 0x80 && y < 0x80 && z < 0x80
  }

  /** The messages an action turns into. A mapping action queues none: its
      effect is the mapping-table write done by `ExecuteAction`. */
  function Encode(a: Action, value: Value): (r: seq<Midi.Message>)
    ensures |r| == MessageCount(a.kind)
    ensures forall m :: m in r ==> SevenBit(m)
    ensures forall m :: m in r ==> !m.Raw? && m.channel == Low7(a.channel)
    ensures a.kind.Controller? ==>
              r == [Midi.ControllerChange(Low7(a.channel), Low7(value.v1), Low7(value.v2))]
    ensures a.kind.Nrpn? ==>
              r == [Midi.Nrpn(Low7(a.channel), Low7(value.v1), Low7(value.v2), Low7(value.v3))]
    ensures a.kind.BankChange? ==>
              && r[0] == Midi.ControllerChange(Low7(a.channel), BANK_SELECT_MSB, BANK_MSB_VALUE)
              && r[1] == Midi.ControllerChange(Low7(a.channel), BANK_SELECT_LSB, 0)
              && r[2] == Midi.ProgramChange(Low7(a.channel), Low7(value.v1))
    ensures a.kind.XgParameterChange? ==>
              r == [Midi.Exclusive(Low7(a.channel), XG_MANUFACTURER,
                                   [XG_MULTI_PART, Low7(a.channel), Low7(value.v1), Low7(value.v2)])]
  {
    match a.kind
    case Controller(_, _) => EncodeController(a.channel, value)
    case BankChange(_) => EncodeBankChange(a.channel, value)
    case Nrpn(_, _, _) => EncodeNrpn(a.channel, value)
    case Mapping(_, _) => []
    case XgParameterChange(_, _) => EncodeXg(a.channel, value)
  }

  /** Reads an action's fields back out of its messages. */
  function DecodeAction(kind: ActionKind, messages: seq<Midi.Message>): Option<Value>
  {
    match kind
    case Controller(_, _) =>
      if |messages| == 1 && messages[0].ControllerChange? then Some(Value(messages[0].number, messages[0].value, 0)) else None
    case BankChange(_) =>
      if |messages| == 3 && messages[2].ProgramChange? then Some(Value(messages[2].number, 0, 0)) else None
    case Nrpn(_, _, _) =>
      if |messages| == 1 && messages[0].Nrpn? then Some(Value(messages[0].msb, messages[0].lsb, messages[0].value)) else None
    case Mapping(_, _) => None
    case XgParameterChange(_, _) =>
      if |messages| == 1 && messages[0].Exclusive? && |messages[0].data| == 4
      then Some(Value(messages[0].data[2], messages[0].data[3], 0)) else None
  }

  /** A value whose unused fields are 0, as `ComputeValue` leaves them. */
  ghost predicate UnusedZero(kind: ActionKind, v: Value)
  {
    && (!kind.Nrpn? ==> v.v3 == 0)
    && (kind.BankChange? ==> v.v2 == 0)
  }

  /** Round trip: the messages of an action carry the low seven bits of each
      field it uses, and so carry the fields exactly when they fit in seven
      bits. */
  lemma EncodeRoundTrip(a: Action, v: Value)
    requires !a.kind.Mapping? && UnusedZero(a.kind, v)
    ensures DecodeAction(a.kind, Encode(a, v)) == Some(Value(Low7(v.v1), Low7(v.v2), Low7(v.v3)))
    ensures 0 <= v.v1 < 0x80 && 0 <= v.v2 < 0x80 && 0 <= v.v3 < 0x80 ==> DecodeAction(a.kind, Encode(a, v)) == Some(v)
  {
  }

  /** From parameters to messages: each resolved parameter lands in the field
      `update_computed_values` assigns it and leaves in the low seven bits of
      the message field the kind's encoder assigns it; a mapping action's note
      and target land in the table write. */
  lemma ComputedMessages(config: Sdhi.Config, values: seq<int>, a: Action)
    requires ActionResolvable(config, values, a)
    ensures var r := Encode(a, ComputeValue(config, values, a));
            a.kind.Controller? ==>
              r == [Midi.ControllerChange(Low7(a.channel), Low7(ParameterValue(config, values, a.kind.number)),
                                          Low7(ParameterValue(config, values, a.kind.value)))]
    ensures var r := Encode(a, ComputeValue(config, values, a));
            a.kind.Nrpn? ==>
              r == [Midi.Nrpn(Low7(a.channel), Low7(ParameterValue(config, values, a.kind.msb)),
                              Low7(ParameterValue(config, values, a.kind.lsb)),
                              Low7(ParameterValue(config, values, a.kind.value)))]
    ensures var r := Encode(a, ComputeValue(config, values, a));
            a.kind.BankChange? ==>
              r[2] == Midi.ProgramChange(Low7(a.channel), Low7(ParameterValue(config, values, a.kind.program)))
    ensures var r := Encode(a, ComputeValue(config, values, a));
            a.kind.XgParameterChange? ==>
              r[0].data[2] == Low7(ParameterValue(config, values, a.kind.parameter)) &&
              r[0].data[3] == Low7(ParameterValue(config, values, a.kind.value))
    ensures a.kind.Mapping? ==>
              EffectOf(a, ComputeValue(config, values, a)).write ==
                Some(NoteWrite(Low7(ParameterValue(config, values, a.kind.note)),
                               Midi.MappedNote(Low7(ParameterValue(config, values, a.kind.target)), Low7(a.channel))))
  {
  }

  // ---------------------------------------------------------------------------
  // Executing one action

  /** A write into the note-mapping table: entry `note & 0x7F` gets `target`. */
  datatype NoteWrite = NoteWrite(note: Byte, target: Midi.MappedNote)

  /** What executing an action amounts to: an optional mapping-table write,
      then a batch of messages admitted all or nothing. */
  datatype Effect = Effect(write: Option<NoteWrite>, messages: seq<Midi.Message>)

  /** The effect of an action with the given value. Only a mapping action
      writes the table: its first field names the note, its second the target
      note, and the action's channel the target channel. */
  function EffectOf(a: Action, value: Value): (r: Effect)
    ensures |r.messages| == MessageCount(a.kind)
    ensures r.write.Some? <==> a.kind.Mapping?
  {
    Effect(if a.kind.Mapping? then Some(NoteWrite(Low7(value.v1), Midi.MappedNote(Low7(value.v2), Low7(a.channel)))) else None,
           Encode(a, value))
  }

  /** Whether a batch was admitted, and the transport afterwards. */
  datatype Attempt = Attempt(sent: bool, transport: Midi.Transport)

  /** The mapping table after an optional write. */
  function Written(mapping: seq<Midi.MappedNote>, write: Option<NoteWrite>): seq<Midi.MappedNote>
    requires |mapping| == Midi.NOTES
  {
    match write
    case None => mapping
    case Some(w) => mapping[Low7(w.note) := w.target]
  }

  /** The body of `execute_action` once the messages are built: the table
      write happens first, come what may; then the messages are queued all
      together if their count is strictly below the transport's budget, and
      none are queued otherwise. */
  function Admit(e: Effect, t: Midi.Transport): (r: Attempt)
    requires Midi.Valid(t)
    ensures Midi.Valid(r.transport)
    ensures r.sent <==> |e.messages| < Midi.CanSend(t)
    ensures r.sent ==> r.transport.queue == t.queue + e.messages
    ensures !r.sent ==> r.transport.queue == t.queue
    ensures r.sent ==> |r.transport.queue| < Midi.OUT_MESSAGES_SIZE
    ensures r.transport.mapping == Written(t.mapping, e.write)
    ensures Midi.SameWire(r.transport, t)
  {
    var mapped := match e.write
                  case None => t
                  case Some(w) => Midi.SetMappedNote(t, w.note, w.target.channel, w.target.note);
    if |e.messages| < Midi.CanSend(mapped) then Attempt(true, Midi.SendMessages(mapped, e.messages))
    else Attempt(false, mapped)
  }

  /** `execute_action`: a mapping action sets entry `v1 & 0x7F` of the table
      whether or not anything is queued; the action's messages are queued
      together exactly when their count is below the budget. */
  function ExecuteAction(a: Action, value: Value, t: Midi.Transport): (r: Attempt)
    requires Midi.Valid(t)
    ensures Midi.Valid(r.transport)
    ensures r.sent <==> MessageCount(a.kind) < Midi.CanSend(t)
    ensures r.sent ==> r.transport.queue == t.queue + Encode(a, value)
    ensures !r.sent ==> r.transport.queue == t.queue
    ensures r.sent ==> |r.transport.queue| < Midi.OUT_MESSAGES_SIZE
    ensures a.kind.Mapping? ==>
              r.transport.mapping == t.mapping[Low7(value.v1) := Midi.MappedNote(Low7(value.v2), Low7(a.channel))]
    ensures !a.kind.Mapping? ==> r.transport.mapping == t.mapping
    ensures Midi.SameWire(r.transport, t)
  {
    Admit(EffectOf(a, value), t)
  }

  /** A bank change is admitted exactly when at least four queue slots are
      free: with room for only three, none of its messages is queued. */
  lemma BankChangeNeedsFourFreeSlots(a: Action, value: Value, t: Midi.Transport)
    requires Midi.Valid(t) && a.kind.BankChange?
    ensures ExecuteAction(a, value, t).sent <==> |t.queue| + 4 <= Midi.OUT_MESSAGES_SIZE
    ensures !ExecuteAction(a, value, t).sent ==> ExecuteAction(a, value, t).transport == t
  {
  }

  /** A mapping action queues nothing, but its table write happens even when
      the queue is full. */
  lemma MappingWritesEvenWhenFull(a: Action, value: Value, t: Midi.Transport)
    requires Midi.Valid(t) && a.kind.Mapping? && |t.queue| == Midi.OUT_MESSAGES_SIZE
    ensures !ExecuteAction(a, value, t).sent
    ensures ExecuteAction(a, value, t).transport.mapping[Low7(value.v1)] == Midi.MappedNote(Low7(value.v2), Low7(a.channel))
  {
  }

  // ---------------------------------------------------------------------------
  // The round-robin scan

  /** The slot after `c` in a ring of `n`. */
  function Next(c: nat, n: nat): (r: nat)
    requires c < n
    ensures r < n
  {
    if c + 1 == n then 0 else c + 1
  }

  /** `Next` is the firmware's `(c + 1) % n`. */
  lemma NextIsModular(c: nat, n: nat)
    requires c < n
    ensures Next(c, n) == (c + 1) % n
  {
  }

  /** How many steps of `Next` lead from `from` to `j`. */
  function Offset(from: nat, j: nat, n: nat): (r: nat)
    requires from < n && j < n
    ensures r < n
  {
    if j >= from then j - from else j + n - from
  }

  /** One step of the cursor lowers every other slot's distance by one and
      puts the slot just left at the far end. */
  lemma OffsetStep(c: nat, n: nat)
    requires c < n
    ensures Offset(Next(c, n), c, n) == n - 1
    ensures forall j :: 0 <= j < n && j != c ==> Offset(c, j, n) == Offset(Next(c, n), j, n) + 1
  {
  }

  /** The effect of every action with its current computed value. Settling a
      slot leaves its computed value, hence its effect, as it was. */
  function Effects(actions: seq<Action>, avs: seq<ActionValue>): (r: seq<Effect>)
    requires |avs| == |actions|
    ensures |r| == |actions|
    ensures forall i :: 0 <= i < |r| ==> r[i] == EffectOf(actions[i], avs[i].computed)
  {
    seq(|actions|, i requires 0 <= i < |actions| => EffectOf(actions[i], avs[i].computed))
  }

  /** The messages dispatching slot `c` queues: none when it is settled. */
  function Pending(effects: seq<Effect>, avs: seq<ActionValue>, c: nat): seq<Midi.Message>
    requires |avs| == |effects| && c < |effects|
  {
    if Settled(avs[c]) then [] else effects[c].messages
  }

  /** The messages dispatching the `k` slots from `cursor` onwards queues, if
      every pending one among them is admitted. */
  function Emitted(effects: seq<Effect>, avs: seq<ActionValue>, cursor: nat, k: nat): seq<Midi.Message>
    requires |avs| == |effects| && cursor < |effects|
    decreases k
  {
    if k == 0 then [] else Pending(effects, avs, cursor) + Emitted(effects, avs, Next(cursor, |effects|), k - 1)
  }

  /** `Emitted` reads only the `k` slots it visits. */
  lemma {:induction false} EmittedReadsVisited(effects: seq<Effect>, avs: seq<ActionValue>, avs': seq<ActionValue>, cursor: nat, k: nat)
    requires |avs| == |effects| && |avs'| == |effects| && cursor < |effects|
    requires forall j :: 0 <= j < |effects| && Offset(cursor, j, |effects|) < k ==> avs[j] == avs'[j]
    ensures Emitted(effects, avs, cursor, k) == Emitted(effects, avs', cursor, k)
    decreases k
  {
    if k > 0 {
      var n := |effects|;
      var next := Next(cursor, n);
      assert Offset(cursor, cursor, n) == 0;
      forall j | 0 <= j < n && Offset(next, j, n) < k - 1
        ensures avs[j] == avs'[j]
      {
        assert Offset(cursor, j, n) <= Offset(next, j, n) + 1;
      }
      EmittedReadsVisited(effects, avs, avs', next, k - 1);
    }
  }

  /** Settling the slot a scan leaves does not change what the next `k < n - 1`
      slots emit. */
  lemma EmittedAfterSettle(effects: seq<Effect>, avs: seq<ActionValue>, cursor: nat, k: nat)
    requires |avs| == |effects| && cursor < |effects| && k + 1 < |effects|
    ensures Emitted(effects, avs[cursor := Settle(avs[cursor])], Next(cursor, |effects|), k)
            == Emitted(effects, avs, Next(cursor, |effects|), k)
  {
    var n := |effects|;
    var avs' := avs[cursor := Settle(avs[cursor])];
    OffsetStep(cursor, n);
    forall j | 0 <= j < n && Offset(Next(cursor, n), j, n) < k
      ensures avs'[j] == avs[j]
    {
      assert j != cursor;
    }
    EmittedReadsVisited(effects, avs', avs, Next(cursor, n), k);
  }

  /** The first attempt of a scan that has slots left: a settled action
      passes, a pending one is executed. */
  function FirstAttempt(effects: seq<Effect>, avs: seq<ActionValue>, cursor: nat, t: Midi.Transport): (r: Attempt)
    requires |avs| == |effects| && cursor < |effects| && Midi.Valid(t)
    ensures Midi.Valid(r.transport)
    ensures r.sent ==> r.transport.queue == t.queue + Pending(effects, avs, cursor)
    ensures !r.sent ==> !Settled(avs[cursor]) && r.transport.queue == t.queue &&
                        |effects[cursor].messages| >= Midi.CanSend(r.transport)
    ensures Midi.SameWire(r.transport, t)
  {
    if Settled(avs[cursor]) then Attempt(true, t) else Admit(effects[cursor], t)
  }

  /** The state after a scan: values, cursor, transport; how many slots were
      completed; whether it stopped on an action that did not fit. */
  datatype ScanResult = ScanResult(values: seq<ActionValue>, cursor: nat, transport: Midi.Transport, done: nat, stalled: bool)

  /** The loop of `execute_actions`, visiting at most `remaining` slots from
      `cursor`: settled actions are passed over, pending ones executed; the
      first pending action that is not admitted stops the scan with the cursor
      on it. */
  function Scan(effects: seq<Effect>, avs: seq<ActionValue>, cursor: nat, remaining: nat, t: Midi.Transport): (r: ScanResult)
    requires |avs| == |effects| && cursor < |effects| && remaining < |effects|
    requires Midi.Valid(t)
    decreases remaining
    ensures Midi.Valid(r.transport)
    ensures |r.values| == |avs| && r.cursor < |effects|
    ensures r.stalled ==> r.done < remaining
    ensures !r.stalled ==> r.done == remaining
    ensures Offset(cursor, r.cursor, |effects|) == r.done
    ensures r.stalled ==>
              !Settled(avs[r.cursor]) && |effects[r.cursor].messages| >= Midi.CanSend(r.transport)
    ensures Midi.SameWire(r.transport, t)
  {
    var n := |effects|;
    if remaining == 0 then ScanResult(avs, cursor, t, 0, false)
    else
      var attempt := FirstAttempt(effects, avs, cursor, t);
      if !attempt.sent then ScanResult(avs, cursor, attempt.transport, 0, true)
      else
        var avs' := avs[cursor := Settle(avs[cursor])];
        var rest := Scan(effects, avs', Next(cursor, n), remaining - 1, attempt.transport);
        OffsetStep(cursor, n);
        rest.(done := rest.done + 1)
  }

  /** A scan whose first attempt is admitted continues from the next slot
      with that slot settled. */
  lemma ScanContinues(effects: seq<Effect>, avs: seq<ActionValue>, cursor: nat, remaining: nat, t: Midi.Transport)
    requires |avs| == |effects| && cursor < |effects| && 0 < remaining < |effects|
    requires Midi.Valid(t) && FirstAttempt(effects, avs, cursor, t).sent
    ensures var rest := Scan(effects, avs[cursor := Settle(avs[cursor])], Next(cursor, |effects|), remaining - 1,
                             FirstAttempt(effects, avs, cursor, t).transport);
            Scan(effects, avs, cursor, remaining, t) == rest.(done := rest.done + 1)
  {
  }

  /** A scan with no slots left, or whose first attempt is refused, completes
      nothing and queues nothing. */
  lemma ScanStops(effects: seq<Effect>, avs: seq<ActionValue>, cursor: nat, remaining: nat, t: Midi.Transport)
    requires |avs| == |effects| && cursor < |effects| && remaining < |effects|
    requires Midi.Valid(t) && (remaining == 0 || !FirstAttempt(effects, avs, cursor, t).sent)
    ensures Scan(effects, avs, cursor, remaining, t).done == 0
    ensures Scan(effects, avs, cursor, remaining, t).values == avs
    ensures Scan(effects, avs, cursor, remaining, t).transport.queue == t.queue
  {
  }

  /** `avs` with the `done` slots from `cursor` settled, in ring order, and
      every other slot untouched. */
  function SettledTable(avs: seq<ActionValue>, cursor: nat, done: nat): (r: seq<ActionValue>)
    requires cursor < |avs|
    ensures |r| == |avs|
  {
    seq(|avs|, j requires 0 <= j < |avs| => if Offset(cursor, j, |avs|) < done then Settle(avs[j]) else avs[j])
  }

  /** Settling no slots leaves the table as it was. */
  lemma NothingSettled(avs: seq<ActionValue>, cursor: nat)
    requires cursor < |avs|
    ensures SettledTable(avs, cursor, 0) == avs
  {
    assert forall j :: 0 <= j < |avs| ==> SettledTable(avs, cursor, 0)[j] == avs[j];
  }

  /** Settling `cursor` and then `done` further slots settles `done + 1`
      slots from `cursor`. */
  lemma SettledSlotsStep(avs: seq<ActionValue>, cursor: nat, done: nat)
    requires cursor < |avs| && done + 1 < |avs|
    ensures SettledTable(avs[cursor := Settle(avs[cursor])], Next(cursor, |avs|), done)
            == SettledTable(avs, cursor, done + 1)
  {
    var n := |avs|;
    var avs' := avs[cursor := Settle(avs[cursor])];
    var next := Next(cursor, n);
    var left := SettledTable(avs', next, done);
    var right := SettledTable(avs, cursor, done + 1);
    OffsetStep(cursor, n);
    forall j | 0 <= j < n
      ensures left[j] == right[j]
    {
      if j != cursor {
        assert Offset(cursor, j, n) == Offset(next, j, n) + 1;
      }
    }
  }

  /** The slots a scan completed are settled and the rest are untouched. */
  lemma {:induction false} ScanSettles(effects: seq<Effect>, avs: seq<ActionValue>, cursor: nat, remaining: nat, t: Midi.Transport)
    requires |avs| == |effects| && cursor < |effects| && remaining < |effects|
    requires Midi.Valid(t)
    ensures var r := Scan(effects, avs, cursor, remaining, t);
            r.values == SettledTable(avs, cursor, r.done)
    decreases remaining
  {
    if remaining == 0 || !FirstAttempt(effects, avs, cursor, t).sent {
      ScanStops(effects, avs, cursor, remaining, t);
      NothingSettled(avs, cursor);
    } else {
      var attempt := FirstAttempt(effects, avs, cursor, t);
      var avs' := avs[cursor := Settle(avs[cursor])];
      var next := Next(cursor, |effects|);
      var rest := Scan(effects, avs', next, remaining - 1, attempt.transport);
      ScanContinues(effects, avs, cursor, remaining, t);
      ScanSettles(effects, avs', next, remaining - 1, attempt.transport);
      SettledSlotsStep(avs, cursor, rest.done);
    }
  }

  /** A scan queues exactly the completed slots' messages, in visiting
      order. */
  lemma {:induction false} ScanQueues(effects: seq<Effect>, avs: seq<ActionValue>, cursor: nat, remaining: nat, t: Midi.Transport)
    requires |avs| == |effects| && cursor < |effects| && remaining < |effects|
    requires Midi.Valid(t)
    ensures var r := Scan(effects, avs, cursor, remaining, t);
            r.transport.queue == t.queue + Emitted(effects, avs, cursor, r.done)
    decreases remaining
  {
    if remaining == 0 || !FirstAttempt(effects, avs, cursor, t).sent {
      ScanStops(effects, avs, cursor, remaining, t);
    } else {
      var attempt := FirstAttempt(effects, avs, cursor, t);
      var avs' := avs[cursor := Settle(avs[cursor])];
      var next := Next(cursor, |effects|);
      var rest := Scan(effects, avs', next, remaining - 1, attempt.transport);
      ScanQueues(effects, avs', next, remaining - 1, attempt.transport);
      ScanContinues(effects, avs, cursor, remaining, t);
      EmittedAfterSettle(effects, avs, cursor, rest.done);
      AppendAssociates(t.queue, Pending(effects, avs, cursor), Emitted(effects, avs, next, rest.done));
    }
  }

  /** One scan of `n - 1` slots from `cursor` over a table of `n` effects.
      Without a stall the cursor ends on the one slot the scan did not visit,
      the slot just before where it started. */
  function ScanCycle(effects: seq<Effect>, avs: seq<ActionValue>, cursor: nat, t: Midi.Transport): (r: ScanResult)
    requires |avs| == |effects| && 1 <= |effects| && cursor < |effects|
    requires Midi.Valid(t)
    ensures Midi.Valid(r.transport) && |r.values| == |avs| && r.cursor < |effects|
    ensures r.done < |effects| && Offset(cursor, r.cursor, |effects|) == r.done
    ensures !r.stalled ==> r.cursor == (if cursor == 0 then |effects| - 1 else cursor - 1)
    ensures r.stalled ==> !Settled(avs[r.cursor]) && |effects[r.cursor].messages| >= Midi.CanSend(r.transport)
  {
    var n := |effects|;
    var last := if cursor == 0 then n - 1 else cursor - 1;
    var r := Scan(effects, avs, cursor, n - 1, t);
    assert !r.stalled ==> r.cursor == last by {
      if !r.stalled {
        assert Offset(cursor, last, n) == n - 1;
      }
    }
    r
  }

  /** The slots a cycle completed are settled and the rest, including the one
      it stalled on, are untouched. */
  lemma CycleSettles(effects: seq<Effect>, avs: seq<ActionValue>, cursor: nat, t: Midi.Transport)
    requires |avs| == |effects| && 1 <= |effects| && cursor < |effects| && Midi.Valid(t)
    ensures var r := ScanCycle(effects, avs, cursor, t);
            r.values == SettledTable(avs, cursor, r.done)
  {
    ScanSettles(effects, avs, cursor, |effects| - 1, t);
  }

  /** A cycle queues exactly the completed slots' messages, in visiting
      order. */
  lemma CycleQueues(effects: seq<Effect>, avs: seq<ActionValue>, cursor: nat, t: Midi.Transport)
    requires |avs| == |effects| && 1 <= |effects| && cursor < |effects| && Midi.Valid(t)
    ensures var r := ScanCycle(effects, avs, cursor, t);
            r.transport.queue == t.queue + Emitted(effects, avs, cursor, r.done)
  {
    ScanQueues(effects, avs, cursor, |effects| - 1, t);
  }

  /** `execute_actions`: one scan cycle over the actions' effects, from the
      persistent cursor. Each action's value is either untouched or settled;
      a stall leaves the cursor on a pending action whose messages do not
      fit. */
  function ExecuteActions(actions: seq<Action>, avs: seq<ActionValue>, cursor: nat, t: Midi.Transport): (r: ScanResult)
    requires |avs| == |actions| && 1 <= |actions| && cursor < |actions|
    requires Midi.Valid(t)
    ensures Midi.Valid(r.transport) && |r.values| == |avs| && r.cursor < |actions|
    ensures r.done < |actions|
    ensures !r.stalled ==> r.cursor == (if cursor == 0 then |actions| - 1 else cursor - 1)
    ensures r.stalled ==> !Settled(avs[r.cursor]) && r.values[r.cursor] == avs[r.cursor] &&
                          MessageCount(actions[r.cursor].kind) >= Midi.CanSend(r.transport)
    ensures forall j :: 0 <= j < |avs| ==> r.values[j].computed == avs[j].computed
    ensures forall j :: 0 <= j < |avs| ==> r.values[j] == avs[j] || r.values[j] == Settle(avs[j])
  {
    var effects := Effects(actions, avs);
    var r := ScanCycle(effects, avs, cursor, t);
    CycleSettles(effects, avs, cursor, t);
    assert r.stalled ==> MessageCount(actions[r.cursor].kind) == |effects[r.cursor].messages|;
    r
  }

  /** Which actions a cycle settled: exactly the `done` slots it visited from
      the cursor, in ring order. */
  lemma ExecuteActionsSettles(actions: seq<Action>, avs: seq<ActionValue>, cursor: nat, t: Midi.Transport)
    requires |avs| == |actions| && 1 <= |actions| && cursor < |actions| && Midi.Valid(t)
    ensures var r := ExecuteActions(actions, avs, cursor, t);
            && (forall j :: 0 <= j < |avs| && Offset(cursor, j, |actions|) < r.done ==> Settled(r.values[j]))
            && (forall j :: 0 <= j < |avs| && Offset(cursor, j, |actions|) >= r.done ==> r.values[j] == avs[j])
  {
    CycleSettles(Effects(actions, avs), avs, cursor, t);
  }

  /** What a cycle queued: the messages of the settled slots' pending actions,
      one batch per action in ring order from the cursor, after what was
      already queued. */
  lemma ExecuteActionsQueues(actions: seq<Action>, avs: seq<ActionValue>, cursor: nat, t: Midi.Transport)
    requires |avs| == |actions| && 1 <= |actions| && cursor < |actions| && Midi.Valid(t)
    ensures var r := ExecuteActions(actions, avs, cursor, t);
            r.transport.queue == t.queue + Emitted(Effects(actions, avs), avs, cursor, r.done)
  {
    CycleQueues(Effects(actions, avs), avs, cursor, t);
  }

  /** Nothing pending, nothing done: a scan over settled actions queues
      nothing and changes nothing. */
  lemma {:induction false} IdleScan(effects: seq<Effect>, avs: seq<ActionValue>, cursor: nat, remaining: nat, t: Midi.Transport)
    requires |avs| == |effects| && cursor < |effects| && remaining < |effects| && Midi.Valid(t)
    requires forall j :: 0 <= j < |avs| ==> Settled(avs[j])
    ensures var r := Scan(effects, avs, cursor, remaining, t);
            r == ScanResult(avs, r.cursor, t, remaining, false)
    decreases remaining
  {
    if remaining > 0 {
      var s := avs[cursor];
      assert Settle(s) == s;
      assert avs[cursor := Settle(s)] == avs;
      ScanContinues(effects, avs, cursor, remaining, t);
      IdleScan(effects, avs, Next(cursor, |effects|), remaining - 1, t);
    }
  }

  /** A cycle over settled actions leaves the values and the transport as
      they were. */
  lemma IdleCycle(effects: seq<Effect>, avs: seq<ActionValue>, cursor: nat, t: Midi.Transport)
    requires |avs| == |effects| && 1 <= |effects| && cursor < |effects| && Midi.Valid(t)
    requires forall j :: 0 <= j < |avs| ==> Settled(avs[j])
    ensures var r := ScanCycle(effects, avs, cursor, t);
            r.values == avs && r.transport == t && !r.stalled
  {
    IdleScan(effects, avs, cursor, |effects| - 1, t);
  }

  /** A cycle with nothing pending dispatches nothing: the values and the
      transport are unchanged and only the cursor moves. */
  lemma IdleCycleIsNoOp(actions: seq<Action>, avs: seq<ActionValue>, cursor: nat, t: Midi.Transport)
    requires |avs| == |actions| && 1 <= |actions| && cursor < |actions| && Midi.Valid(t)
    requires forall j :: 0 <= j < |avs| ==> Settled(avs[j])
    ensures ExecuteActions(actions, avs, cursor, t).values == avs
    ensures ExecuteActions(actions, avs, cursor, t).transport == t
    ensures !ExecuteActions(actions, avs, cursor, t).stalled
  {
    IdleCycle(Effects(actions, avs), avs, cursor, t);
  }

  /** With a single action the scan starts on its own last slot and
      dispatches nothing, pending or not. */
  lemma SingleActionDispatchesNothing(actions: seq<Action>, avs: seq<ActionValue>, t: Midi.Transport)
    requires |avs| == |actions| == 1 && Midi.Valid(t)
    ensures ExecuteActions(actions, avs, 0, t) == ScanResult(avs, 0, t, 0, false)
  {
  }

  /** Fairness under backpressure: an action that stalled a scan is the first
      one the next scan tries, and once the budget admits it, it is settled
      and its messages are the first the next scan queues. */
  lemma StalledActionRetriedFirst(actions: seq<Action>, avs: seq<ActionValue>, cursor: nat, t: Midi.Transport, t2: Midi.Transport)
    requires |avs| == |actions| && 2 <= |actions| && cursor < |actions| && Midi.Valid(t) && Midi.Valid(t2)
    requires ExecuteActions(actions, avs, cursor, t).stalled
    requires var k := ExecuteActions(actions, avs, cursor, t).cursor;
             MessageCount(actions[k].kind) < Midi.CanSend(t2)
    ensures var first := ExecuteActions(actions, avs, cursor, t);
            var k := first.cursor;
            var second := ExecuteActions(actions, first.values, k, t2);
            && Settled(second.values[k])
            && t2.queue + Encode(actions[k], avs[k].computed) <= second.transport.queue
  {
    var first := ExecuteActions(actions, avs, cursor, t);
    var k := first.cursor;
    var second := ExecuteActions(actions, first.values, k, t2);
    var n := |actions|;
    var effects := Effects(actions, first.values);
    ExecuteActionsSettles(actions, first.values, k, t2);
    ExecuteActionsQueues(actions, first.values, k, t2);
    assert Offset(k, k, n) == 0;
    var head := Encode(actions[k], avs[k].computed);
    assert effects[k].messages == head;
    assert Emitted(effects, first.values, k, second.done)
        == head + Emitted(effects, first.values, Next(k, n), second.done - 1);
    AppendAssociates(t2.queue, head, Emitted(effects, first.values, Next(k, n), second.done - 1));
  }

  // ---------------------------------------------------------------------------
  // One engine cycle, and start-up

  /** The engine's persistent state: the scan cursor and the value table. */
  datatype Engine = Engine(cursor: nat, values: seq<ActionValue>)

  /** `action_update`: recompute every action's value, then run one scan. */
  function ActionUpdate(config: Sdhi.Config, values: seq<int>, actions: seq<Action>, e: Engine, t: Midi.Transport): (r: ScanResult)
    requires |e.values| == |actions| && 1 <= |actions| && e.cursor < |actions|
    requires forall i :: 0 <= i < |actions| ==> ActionResolvable(config, values, actions[i])
    requires Midi.Valid(t)
    ensures Midi.Valid(r.transport) && |r.values| == |actions| && r.cursor < |actions|
    ensures forall i :: 0 <= i < |actions| ==> r.values[i].computed == ComputeValue(config, values, actions[i])
    ensures forall i :: 0 <= i < |actions| ==> r.values[i].sent == e.values[i].sent || Settled(r.values[i])
  {
    ExecuteActions(actions, UpdateComputedValues(config, values, actions, e.values), e.cursor, t)
  }

  /** Where start-up got to: the engine, the transport, and the action the
      firmware would keep retrying (`None` once every action was sent). */
  datatype Startup = Startup(engine: Engine, transport: Midi.Transport, waitingAt: Option<nat>)

  /** The loop of `action_init` from index `i`, one attempt per action: every
      action is executed whether or not it is pending. An action that is not
      admitted is where the firmware sleeps and retries until the other core
      drains the queue; here the pass stops there. */
  function InitFrom(effects: seq<Effect>, avs: seq<ActionValue>, i: nat, t: Midi.Transport): (r: Startup)
    requires |avs| == |effects| && Midi.Valid(t)
    decreases if i <= |effects| then |effects| - i else 0
    ensures Midi.Valid(r.transport) && r.engine.cursor == 0 && |r.engine.values| == |avs|
    ensures forall j :: 0 <= j < |avs| && j < i ==> r.engine.values[j] == avs[j]
    ensures r.waitingAt.None? ==> forall j :: i <= j < |avs| ==> r.engine.values[j] == Settle(avs[j])
    ensures r.waitingAt.Some? ==>
              var w := r.waitingAt.value;
              && i <= w < |effects|
              && (forall j :: i <= j < w ==> r.engine.values[j] == Settle(avs[j]))
              && (forall j :: w <= j < |avs| ==> r.engine.values[j] == avs[j])
              && |effects[w].messages| >= Midi.CanSend(r.transport)
  {
    if i >= |effects| then Startup(Engine(0, avs), t, None)
    else
      var attempt := Admit(effects[i], t);
      if !attempt.sent then Startup(Engine(0, avs), attempt.transport, Some(i))
      else InitFrom(effects, avs[i := Settle(avs[i])], i + 1, attempt.transport)
  }

  /** The loop variable of `action_init` is never initialised: started at an
      index past the last action, start-up sends nothing and every pending
      action stays pending. */
  lemma UninitialisedIndexSkipsActions(effects: seq<Effect>, avs: seq<ActionValue>, start: nat, t: Midi.Transport)
    requires |avs| == |effects| && Midi.Valid(t) && start >= |effects|
    ensures InitFrom(effects, avs, start, t) == Startup(Engine(0, avs), t, None)
    ensures forall j :: 0 <= j < |avs| && !Settled(avs[j]) ==> !Settled(InitFrom(effects, avs, start, t).engine.values[j])
  {
  }

  /** Messages needed by the effects from index `i` on. */
  function MessagesFrom(effects: seq<Effect>, i: nat): nat
    decreases if i <= |effects| then |effects| - i else 0
  {
    if i >= |effects| then 0 else |effects[i].messages| + MessagesFrom(effects, i + 1)
  }

  /** The messages of the effects from index `i` on, in table order. */
  function BatchesFrom(effects: seq<Effect>, i: nat): seq<Midi.Message>
    decreases if i <= |effects| then |effects| - i else 0
  {
    if i >= |effects| then [] else effects[i].messages + BatchesFrom(effects, i + 1)
  }

  /** With room in the queue for every message at once (the strict admission
      test needs one slot to spare), one pass sends every action from `i` on,
      in order, and settles each. */
  lemma {:induction false} InitFromWithRoom(effects: seq<Effect>, avs: seq<ActionValue>, i: nat, t: Midi.Transport)
    requires |avs| == |effects| && Midi.Valid(t)
    requires forall j :: 0 <= j < |effects| ==> |effects[j].messages| < Midi.MAX_CONTROLLER_MESSAGES
    requires |t.queue| + MessagesFrom(effects, i) < Midi.OUT_MESSAGES_SIZE
    ensures InitFrom(effects, avs, i, t).waitingAt.None?
    ensures InitFrom(effects, avs, i, t).transport.queue == t.queue + BatchesFrom(effects, i)
    decreases if i <= |effects| then |effects| - i else 0
  {
    if i < |effects| {
      var attempt := Admit(effects[i], t);
      assert MessagesFrom(effects, i) == |effects[i].messages| + MessagesFrom(effects, i + 1);
      assert attempt.sent;
      var avs' := avs[i := Settle(avs[i])];
      assert InitFrom(effects, avs, i, t) == InitFrom(effects, avs', i + 1, attempt.transport);
      InitFromWithRoom(effects, avs', i + 1, attempt.transport);
      AppendAssociates(t.queue, effects[i].messages, BatchesFrom(effects, i + 1));
    }
  }

  /** `action_init`: the cursor restarts at 0, every computed value is
      refreshed, and every action is sent once, from the first. */
  function ActionInit(config: Sdhi.Config, values: seq<int>, actions: seq<Action>, avs: seq<ActionValue>, t: Midi.Transport): (r: Startup)
    requires |avs| == |actions|
    requires forall i :: 0 <= i < |actions| ==> ActionResolvable(config, values, actions[i])
    requires Midi.Valid(t)
    ensures r.engine.cursor == 0 && |r.engine.values| == |actions|
    ensures r.waitingAt.None? ==> forall i :: 0 <= i < |actions| ==>
              Settled(r.engine.values[i]) && r.engine.values[i].computed == ComputeValue(config, values, actions[i])
    ensures Midi.Valid(r.transport)
    ensures r.waitingAt.Some? ==>
              r.waitingAt.value < |actions| && MessageCount(actions[r.waitingAt.value].kind) >= Midi.CanSend(r.transport)
  {
    var avs' := UpdateComputedValues(config, values, actions, avs);
    InitFrom(Effects(actions, avs'), avs', 0, t)
  }

  /** The messages of every action in table order. */
  function AllMessages(actions: seq<Action>, avs: seq<ActionValue>, i: nat): seq<Midi.Message>
    requires |avs| == |actions|
    decreases if i <= |actions| then |actions| - i else 0
  {
    if i >= |actions| then [] else Encode(actions[i], avs[i].computed) + AllMessages(actions, avs, i + 1)
  }

  /** Total message count of the actions from index `i` on. */
  function CountFrom(actions: seq<Action>, i: nat): nat
    decreases if i <= |actions| then |actions| - i else 0
  {
    if i >= |actions| then 0 else MessageCount(actions[i].kind) + CountFrom(actions, i + 1)
  }

  lemma {:induction false} EffectsAgree(actions: seq<Action>, avs: seq<ActionValue>, i: nat)
    requires |avs| == |actions|
    ensures MessagesFrom(Effects(actions, avs), i) == CountFrom(actions, i)
    ensures BatchesFrom(Effects(actions, avs), i) == AllMessages(actions, avs, i)
    decreases if i <= |actions| then |actions| - i else 0
  {
    if i < |actions| {
      EffectsAgree(actions, avs, i + 1);
    }
  }

  /** With enough room, start-up completes and queues every action's messages
      in table order. */
  lemma ActionInitWithRoom(config: Sdhi.Config, values: seq<int>, actions: seq<Action>, avs: seq<ActionValue>, t: Midi.Transport)
    requires |avs| == |actions|
    requires forall i :: 0 <= i < |actions| ==> ActionResolvable(config, values, actions[i])
    requires Midi.Valid(t)
    requires |t.queue| + CountFrom(actions, 0) < Midi.OUT_MESSAGES_SIZE
    ensures ActionInit(config, values, actions, avs, t).waitingAt.None?
    ensures ActionInit(config, values, actions, avs, t).transport.queue
            == t.queue + AllMessages(actions, UpdateComputedValues(config, values, actions, avs), 0)
  {
    var avs' := UpdateComputedValues(config, values, actions, avs);
    EffectsAgree(actions, avs', 0);
    InitFromWithRoom(Effects(actions, avs'), avs', 0, t);
  }
}

=== FILE: base.dfy ===
/** Small shared vocabulary: an optional value and the fixed-width integer
    conversions the firmware relies on (uint8_t storage, `& 0x7F` masking,
    conversion to int8_t). */
module Base {

  /** The conventional Some/None datatype, standing in for NULL pointers and
      sentinel values. */
  datatype Option<+T> = None | Some(value: T)

  /** An unsigned 8-bit value (uint8_t). */
  type Byte = x: int | 0 <= x < 0x100

  /** `x & 0x7F` on a two's-complement integer: the low seven bits of `x`. */
  function Low7(x: int): (r: Byte)
    ensures r < 0x80
    ensures (x - r) % 0x80 == 0
    ensures 0 <= x < 0x80 ==> r == x
  {
    x % 0x80
  }

  /** `x & 0x0F` on a two's-complement integer: the low four bits of `x`. */
  function Low4(x: int): (r: Byte)
    ensures r < 0x10
    ensures (x - r) % 0x10 == 0
    ensures 0 <= x < 0x10 ==> r == x
  {
    x % 0x10
  }

  /** Conversion of an integer to int8_t, which wraps modulo 256. */
  function Int8(x: int): (r: int)
    ensures -0x80 <= r < 0x80
    ensures (x - r) % 0x100 == 0
    ensures -0x80 <= x < 0x80 ==> r == x
  {
    (x + 0x80) % 0x100 - 0x80
  }

  /** Concatenation is associative; stated once so that proofs about queues
      and byte streams can regroup their pieces explicitly. */
  lemma AppendAssociates<T>(a: seq<T>, b: seq<T>, c: seq<T>)
    ensures (a + b) + c == a + (b + c)
  {
  }
}

=== FILE: encoder.dfy ===
/** The quadrature step of `i2c_controller_update_blocking`: the rotary
    encoder's A and B lines are read from a port expander; every rising edge
    of A is one detent, clockwise when B is low and counter-clockwise when B
    is high. The I2C transactions themselves are not modelled: the byte read
    is an input. */
module Quadrature {
  import opened Base

  /** The encoder state: the last level seen on A and the running count
      (`old_a` and `value`). */
  datatype Encoder = Encoder(oldA: Byte, value: int)

  /** Start-up state: `old_a = 1`, `value = 0`. */
  const INITIAL: Encoder := Encoder(1, 0)

  /** `(rx >> 3) & 1`: the level of line A. */
  function ABit(rx: Byte): (r: Byte)
    ensures r <= 1
  {
    (rx / 0x08) % 2
  }

  /** `(rx >> 4) & 1`: the level of line B. */
  function BBit(rx: Byte): (r: Byte)
    ensures r <= 1
  {
    (rx / 0x10) % 2
  }

  /** A is bit 3 and B is bit 4 of the byte read; the other six bits, whatever
      they are, do not matter. */
  lemma LinesDecode(a: nat, b: nat, low: nat, high: nat)
    requires a <= 1 && b <= 1 && low < 0x08 && high < 0x08
    ensures var rx := low + 0x08 * a + 0x10 * b + 0x20 * high;
            0 <= rx < 0x100 && ABit(rx) == a && BBit(rx) == b
  {
    var rx := low + 0x08 * a + 0x10 * b + 0x20 * high;
    assert rx / 0x08 == a + 2 * b + 4 * high;
    assert rx / 0x10 == b + 2 * high;
  }

  /** Reachable states: `old_a` only ever holds a line level. */
  ghost predicate Reachable(e: Encoder)
  {
    e.oldA <= 1
  }

  /** One sample: a rising edge of A moves the count by one, up when B is low
      and down when B is high; A is remembered either way. */
  function Sample(e: Encoder, rx: Byte): (r: Encoder)
    ensures r.oldA == ABit(rx) && Reachable(r)
    ensures r.value != e.value <==> ABit(rx) == 1 && e.oldA != 1
    ensures r.value > e.value <==> ABit(rx) == 1 && e.oldA != 1 && BBit(rx) == 0
    ensures r.value - e.value in {-1, 0, 1}
  {
    var a := ABit(rx);
    var b := BBit(rx);
    var value := if a == 1 && a != e.oldA then (if b == 1 then e.value - 1 else e.value + 1) else e.value;
    Encoder(a, value)
  }

  /** Reading the same byte twice counts it once: a failed read that leaves
      the previous bytes in the buffer never adds a detent. */
  lemma StaleReadCountsNothing(e: Encoder, rx: Byte)
    ensures Sample(Sample(e, rx), rx) == Sample(e, rx)
  {
  }

  /** The samples of successive polls, in order. */
  function SampleAll(e: Encoder, rxs: seq<Byte>): (r: Encoder)
    ensures rxs != [] ==> r.oldA == ABit(rxs[|rxs| - 1])
    ensures rxs == [] ==> r == e
    decreases |rxs|
  {
    if rxs == [] then e else SampleAll(Sample(e, rxs[0]), rxs[1..])
  }

  /** Polling in two runs is polling once over both. */
  lemma {:induction false} SampleAllAppend(e: Encoder, xs: seq<Byte>, ys: seq<Byte>)
    ensures SampleAll(e, xs + ys) == SampleAll(SampleAll(e, xs), ys)
    decreases |xs|
  {
    if xs != [] {
      assert (xs + ys)[0] == xs[0];
      assert (xs + ys)[1..] == xs[1..] + ys;
      SampleAllAppend(Sample(e, xs[0]), xs[1..], ys);
    } else {
      assert xs + ys == ys;
    }
  }

  /** One clockwise detent: A leads B through the Gray sequence
      (A,B) = (1,0), (1,1), (0,1), (0,0). */
  const CLOCKWISE: seq<Byte> := [0x08, 0x18, 0x10, 0x00]

  /** One counter-clockwise detent: B leads A,
      (A,B) = (0,1), (1,1), (1,0), (0,0). */
  const COUNTER_CLOCKWISE: seq<Byte> := [0x10, 0x18, 0x08, 0x00]

  function Repeat(cycle: seq<Byte>, n: nat): (r: seq<Byte>)
    ensures |r| == n * |cycle|
  {
    if n == 0 then [] else cycle + Repeat(cycle, n - 1)
  }

  /** `n` clockwise detents from rest (A low) add exactly `n` and end at
      rest again. */
  lemma {:induction false} ClockwiseTurns(e: Encoder, n: nat)
    requires e.oldA == 0
    ensures SampleAll(e, Repeat(CLOCKWISE, n)) == Encoder(0, e.value + n)
    decreases n
  {
    if n > 0 {
      SampleAllAppend(e, CLOCKWISE, Repeat(CLOCKWISE, n - 1));
      var once := SampleAll(e, CLOCKWISE);
      assert once == Encoder(0, e.value + 1) by {
        assert ABit(0x08) == 1 && BBit(0x08) == 0;
        assert ABit(0x18) == 1 && ABit(0x10) == 0 && ABit(0x00) == 0;
        assert CLOCKWISE[1..] == [0x18, 0x10, 0x00];
        assert CLOCKWISE[1..][1..] == [0x10, 0x00];
        assert CLOCKWISE[1..][1..][1..] == [0x00];
      }
      ClockwiseTurns(once, n - 1);
    }
  }

  /** `n` counter-clockwise detents from rest subtract exactly `n` and end
      at rest again. */
  lemma {:induction false} CounterClockwiseTurns(e: Encoder, n: nat)
    requires e.oldA == 0
    ensures SampleAll(e, Repeat(COUNTER_CLOCKWISE, n)) == Encoder(0, e.value - n)
    decreases n
  {
    if n > 0 {
      SampleAllAppend(e, COUNTER_CLOCKWISE, Repeat(COUNTER_CLOCKWISE, n - 1));
      var once := SampleAll(e, COUNTER_CLOCKWISE);
      assert once == Encoder(0, e.value - 1) by {
        assert ABit(0x10) == 0;
        assert ABit(0x18) == 1 && BBit(0x18) == 1;
        assert ABit(0x08) == 1 && ABit(0x00) == 0;
        assert COUNTER_CLOCKWISE[1..] == [0x18, 0x08, 0x00];
        assert COUNTER_CLOCKWISE[1..][1..] == [0x08, 0x00];
        assert COUNTER_CLOCKWISE[1..][1..][1..] == [0x00];
      }
      CounterClockwiseTurns(once, n - 1);
    }
  }

  /** With A held high from a state that already saw it high, nothing
      counts; in particular an encoder resting with A high at power-up does
      not produce a detent on the first poll. */
  lemma {:induction false} HeldHighCountsNothing(e: Encoder, rxs: seq<Byte>)
    requires e.oldA == 1
    requires forall i :: 0 <= i < |rxs| ==> ABit(rxs[i]) == 1
    ensures SampleAll(e, rxs) == e
    decreases |rxs|
  {
    if rxs != [] {
      assert Sample(e, rxs[0]) == e;
      HeldHighCountsNothing(e, rxs[1..]);
    }
  }

  /** The power-up state remembers A as high, so polls that keep seeing A
      high leave the count at zero. */
  lemma PowerUpWithAHigh(rxs: seq<Byte>)
    requires forall i :: 0 <= i < |rxs| ==> ABit(rxs[i]) == 1
    ensures SampleAll(INITIAL, rxs).value == 0
  {
    HeldHighCountsNothing(INITIAL, rxs);
  }

  /** A detent needs A low and then high, so `n` polls move the count by at
      most half of them (one more when A was last seen low). */
  lemma {:induction false} CountBound(e: Encoder, rxs: seq<Byte>)
    requires Reachable(e)
    ensures var change := SampleAll(e, rxs).value - e.value;
            var bound := (|rxs| + 1 - e.oldA) / 2;
            -bound <= change <= bound
    decreases |rxs|
  {
    if rxs != [] {
      var next := Sample(e, rxs[0]);
      CountBound(next, rxs[1..]);
    }
  }
}

=== FILE: midi.dfy ===
/** The MIDI transport: a bounded outbound message queue, a three-byte
    outbound wire frame written one byte per step, a three-byte inbound frame
    with a two-byte shift resync, and the note-mapping table that turns
    received notes into outbound notes. Byte layouts are the Channel Voice
    Messages of the MIDI 1.0 Detailed Specification (Note Off 0x8n, Note On
    0x9n). */
module Midi {
  import opened Base

  /** An unsigned 16-bit value (uint16_t). */
  type Word = x: int | 0 <= x < 0x1_0000

  /** The logical messages the queue carries. */
  datatype Message =
    | ControllerChange(channel: Byte, number: Byte, value: Byte)
    | NoteOn(channel: Byte, note: Byte, velocity: Byte)
    | NoteOff(channel: Byte, note: Byte, velocity: Byte)
    | ProgramChange(channel: Byte, number: Byte)
    | Rpn(channel: Byte, msb: Byte, lsb: Byte, value: Byte)
    | Nrpn(channel: Byte, msb: Byte, lsb: Byte, value: Byte)
    | Exclusive(channel: Byte, manufacturer: Word, data: seq<Byte>)
    | Raw(x: Byte, y: Byte, z: Byte)

  const NOTE_OFF: Byte := 0x80
  const NOTE_ON: Byte := 0x90
  /** Capacity of the outbound queue. */
  const OUT_MESSAGES_SIZE: nat := 16
  /** Most messages one action may be admitted per query. */
  const MAX_CONTROLLER_MESSAGES: nat := 8
  /** Entries of the note-mapping table: one per 7-bit note number. */
  const NOTES: nat := 128
  /** The `note` of an unmapped entry. */
  const UNMAPPED: Byte := 0x80
  /** Bytes in an inbound or outbound wire frame. */
  const FRAME: nat := 3

  /** Where a received note is sent: output note and channel. */
  datatype MappedNote = MappedNote(note: Byte, channel: Byte)

  const NOT_MAPPED: MappedNote := MappedNote(UNMAPPED, 0)

  predicate IsMapped(m: MappedNote)
  {
    m.note != UNMAPPED
  }

  datatype Transport = Transport(
    inFrame: seq<Byte>,
    inPosition: nat,
    outFrame: seq<Byte>,
    outPosition: nat,
    outSize: nat,
    queue: seq<Message>,
    mapping: seq<MappedNote>)

  /** The transport invariant: frames of three bytes, the inbound position on
      one of them, the outbound cursor within the loaded frame, the queue
      within capacity, one mapping entry per note. */
  ghost predicate Valid(t: Transport)
  {
    && |t.inFrame| == FRAME && t.inPosition < FRAME
    && |t.outFrame| == FRAME && t.outPosition <= t.outSize <= FRAME
    && |t.queue| <= OUT_MESSAGES_SIZE
    && |t.mapping| == NOTES
  }

  /** Two transports in the same receive and transmit state: only the
      outbound queue and the mapping table may differ. */
  predicate SameWire(a: Transport, b: Transport)
  {
    && a.inFrame == b.inFrame && a.inPosition == b.inPosition
    && a.outFrame == b.outFrame && a.outPosition == b.outPosition && a.outSize == b.outSize
  }

  /** `midi_init`: empty queue, nothing to write, nothing received, every
      note unmapped. */
  function Init(): (r: Transport)
    ensures Valid(r)
    ensures r.queue == [] && r.inPosition == 0 && r.outPosition == r.outSize
    ensures forall n :: 0 <= n < NOTES ==> !IsMapped(r.mapping[n])
  {
    Transport([0, 0, 0], 0, [0, 0, 0], 0, 0, [], seq(NOTES, _ => NOT_MAPPED))
  }

  // ---------------------------------------------------------------------------
  // Outbound queue

  /** `midi_can_send_messages`: how many messages may be queued now, the
      free slots capped at `MAX_CONTROLLER_MESSAGES`. */
  function CanSend(t: Transport): (r: nat)
    requires Valid(t)
    ensures r <= MAX_CONTROLLER_MESSAGES
    ensures |t.queue| + r <= OUT_MESSAGES_SIZE
    ensures r == MAX_CONTROLLER_MESSAGES || |t.queue| + r == OUT_MESSAGES_SIZE
  {
    var free := OUT_MESSAGES_SIZE - |t.queue|;
    if free < MAX_CONTROLLER_MESSAGES then free else MAX_CONTROLLER_MESSAGES
  }

  /** `midi_send_messages`: appends the messages in order. The firmware adds
      with a blocking call; here the room must be there. */
  function SendMessages(t: Transport, messages: seq<Message>): (r: Transport)
    requires Valid(t)
    requires |t.queue| + |messages| <= OUT_MESSAGES_SIZE
    ensures Valid(r)
    ensures |r.queue| == |t.queue| + |messages|
    ensures r.queue == t.queue + messages
    ensures r == t.(queue := r.queue)
  {
    t.(queue := t.queue + messages)
  }

  // ---------------------------------------------------------------------------
  // Note mapping

  /** `midi_set_mapped_note`: entry `note & 0x7F` now sends to `outNote` on
      `outChannel`. */
  function SetMappedNote(t: Transport, note: Byte, outChannel: Byte, outNote: Byte): (r: Transport)
    requires Valid(t)
    ensures Valid(r)
    ensures r.mapping[Low7(note)] == MappedNote(outNote, outChannel)
    ensures forall n :: 0 <= n < NOTES && n != Low7(note) ==> r.mapping[n] == t.mapping[n]
    ensures r == t.(mapping := r.mapping)
  {
    t.(mapping := t.mapping[Low7(note) := MappedNote(outNote, outChannel)])
  }

  /** `midi_clear_mapped_note`: entry `note & 0x7F` is unmapped again. */
  function ClearMappedNote(t: Transport, note: Byte): (r: Transport)
    requires Valid(t)
    ensures Valid(r)
    ensures !IsMapped(r.mapping[Low7(note)])
    ensures forall n :: 0 <= n < NOTES && n != Low7(note) ==> r.mapping[n] == t.mapping[n]
    ensures r == t.(mapping := r.mapping)
  {
    t.(mapping := t.mapping[Low7(note) := NOT_MAPPED])
  }

  /** Clearing undoes setting: the entry is unmapped whatever it was set to. */
  lemma ClearAfterSet(t: Transport, note: Byte, outChannel: Byte, outNote: Byte)
    requires Valid(t)
    ensures ClearMappedNote(SetMappedNote(t, note, outChannel, outNote), note).mapping
            == t.mapping[Low7(note) := NOT_MAPPED]
  {
  }

  // ---------------------------------------------------------------------------
  // Note mapping as written: a table one entry short

  /** Table length the firmware declares. */
  const NOTES_AS_WRITTEN: nat := 127

  /** The table `midi_init` fills in the firmware. */
  function InitMappingAsWritten(): (r: seq<MappedNote>)
    ensures |r| == NOTES_AS_WRITTEN
  {
    seq(NOTES_AS_WRITTEN, _ => NOT_MAPPED)
  }

  /** `mapping[note & 0x7F] = target` on the firmware's table; `None` is a write
      past the end of the table. */
  function SetMappedNoteAsWritten(table: seq<MappedNote>, note: Byte, outChannel: Byte, outNote: Byte): (r: Option<seq<MappedNote>>)
    ensures r.None? <==> Low7(note) >= |table|
    ensures r.Some? ==> |r.value| == |table| && r.value[Low7(note)] == MappedNote(outNote, outChannel)
  {
    if Low7(note) < |table| then Some(table[Low7(note) := MappedNote(outNote, outChannel)]) else None
  }

  /** Note 127 (and every byte whose low seven bits are 127) indexes one past
      the end of the firmware's table; every other note fits. */
  lemma MappingTableOneShort(note: Byte)
    ensures SetMappedNoteAsWritten(InitMappingAsWritten(), note, 0, 0).None? <==> Low7(note) == 127
  {
  }

  // ---------------------------------------------------------------------------
  // Wire encoding

  /** The three wire bytes of a note frame. */
  function NoteFrame(status: Byte, channel: Byte, note: Byte, velocity: Byte): (r: seq<Byte>)
    requires status == NOTE_ON || status == NOTE_OFF
    ensures |r| == FRAME
    ensures r[0] / 0x10 == status / 0x10 && r[0] % 0x10 == channel % 0x10
    ensures r[1] < 0x80 && r[2] < 0x80
    ensures r[1] == Low7(note) && r[2] == Low7(velocity)
  {
    [status + Low4(channel), Low7(note), Low7(velocity)]
  }

  /** The frame `midi_write_message` loads for a message, or `None` for the
      types it does not encode. */
  function WireFrame(m: Message): (r: Option<seq<Byte>>)
    ensures r.Some? <==> m.NoteOn? || m.NoteOff? || m.Raw?
    ensures r.Some? ==> |r.value| == FRAME
    ensures m.NoteOn? ==> r.value == [NOTE_ON + Low4(m.channel), Low7(m.note), Low7(m.velocity)]
    ensures m.NoteOff? ==> r.value == [NOTE_OFF + Low4(m.channel), Low7(m.note), Low7(m.velocity)]
    ensures m.Raw? ==> r.value == [m.x, m.y, m.z]
  {
    match m
    case NoteOn(channel, note, velocity) => Some(NoteFrame(NOTE_ON, channel, note, velocity))
    case NoteOff(channel, note, velocity) => Some(NoteFrame(NOTE_OFF, channel, note, velocity))
    case Raw(x, y, z) => Some([x, y, z])
    case _ => None
  }

  /** `midi_write_message`: load the message's frame and rewind the write
      cursor; a message of any other type leaves the frame as it was. */
  function WriteMessage(t: Transport, m: Message): (r: Transport)
    requires Valid(t)
    ensures Valid(r)
    ensures WireFrame(m).Some? ==> r.outFrame == WireFrame(m).value && r.outSize == FRAME && r.outPosition == 0
    ensures WireFrame(m).None? ==> r == t
    ensures r.queue == t.queue && r.inFrame == t.inFrame && r.inPosition == t.inPosition && r.mapping == t.mapping
  {
    match WireFrame(m)
    case Some(frame) => t.(outFrame := frame, outSize := FRAME, outPosition := 0)
    case None => t
  }

  // ---------------------------------------------------------------------------
  // Inbound decoding

  /** `read_note` behind the status switch of `midi_run`: a frame whose first
      byte is exactly 0x80 or 0x90 is a note, with masked fields. */
  function DecodeFrame(frame: seq<Byte>): (r: Option<Message>)
    requires |frame| == FRAME
    ensures r.Some? <==> frame[0] == NOTE_OFF || frame[0] == NOTE_ON
    ensures r.Some? ==> (r.value.NoteOn? <==> frame[0] == NOTE_ON)
    ensures r.Some? ==> (r.value.NoteOn? || r.value.NoteOff?) && r.value.channel == 0 &&
                        r.value.note < 0x80 && r.value.velocity < 0x80
  {
    if frame[0] == NOTE_OFF then Some(NoteOff(Low4(frame[0]), Low7(frame[1]), Low7(frame[2])))
    else if frame[0] == NOTE_ON then Some(NoteOn(Low4(frame[0]), Low7(frame[1]), Low7(frame[2])))
    else None
  }

  /** Decoding the wire frame of a note on the first channel gives the note
      back with its fields masked to their wire width; a note on any other
      channel is not recognised by the receiver. */
  lemma NoteRoundTrip(m: Message)
    requires m.NoteOn? || m.NoteOff?
    ensures Low4(m.channel) == 0 ==>
              DecodeFrame(WireFrame(m).value) ==
                Some(if m.NoteOn? then NoteOn(0, Low7(m.note), Low7(m.velocity))
                     else NoteOff(0, Low7(m.note), Low7(m.velocity)))
    ensures Low4(m.channel) != 0 ==> DecodeFrame(WireFrame(m).value).None?
  {
  }

  /** `send_mapped`: the outbound note for a received one. */
  function MapNote(received: Message, target: MappedNote): (r: Message)
    requires received.NoteOn? || received.NoteOff?
    ensures r.NoteOn? <==> received.NoteOn?
    ensures r.NoteOn? || r.NoteOff?
    ensures r.channel == target.channel && r.note == target.note && r.velocity == received.velocity
  {
    if received.NoteOn? then NoteOn(target.channel, target.note, received.velocity)
    else NoteOff(target.channel, target.note, received.velocity)
  }

  // ---------------------------------------------------------------------------
  // One step of `midi_run`

  /** A step either continues or hits the firmware's panic on a full queue. */
  datatype StepResult = Stepped(transport: Transport, written: Option<Byte>) | Panicked

  /** The read branch: store the byte; on the third byte decode the frame,
      forward a mapped note, and either restart the frame or shift it left by
      one byte to resynchronise. */
  function Receive(t: Transport, b: Byte): (r: StepResult)
    requires Valid(t)
    ensures r.Stepped? ==> Valid(r.transport) && r.written.None?
    ensures r.Stepped? ==> r.transport.outFrame == t.outFrame && r.transport.outPosition == t.outPosition &&
                           r.transport.outSize == t.outSize && r.transport.mapping == t.mapping
    ensures t.inPosition < FRAME - 1 ==>
              r == Stepped(t.(inFrame := t.inFrame[t.inPosition := b], inPosition := t.inPosition + 1), None)
    ensures t.inPosition == FRAME - 1 ==>
              var frame := t.inFrame[t.inPosition := b];
              match DecodeFrame(frame)
              case None =>
                r == Stepped(t.(inFrame := [frame[1], frame[2], frame[2]], inPosition := FRAME - 1), None)
              case Some(m) =>
                var target := t.mapping[m.note];
                if !IsMapped(target) then r.Stepped? && r.transport.queue == t.queue && r.transport.inPosition == 0
                else if |t.queue| < OUT_MESSAGES_SIZE then
                  r.Stepped? && r.transport.queue == t.queue + [MapNote(m, target)] && r.transport.inPosition == 0
                else r.Panicked?
  {
    var frame := t.inFrame[t.inPosition := b];
    if t.inPosition < FRAME - 1 then
      Stepped(t.(inFrame := frame, inPosition := t.inPosition + 1), None)
    else
      match DecodeFrame(frame)
      case None =>
        Stepped(t.(inFrame := [frame[1], frame[2], frame[2]], inPosition := FRAME - 1), None)
      case Some(m) =>
        var target := t.mapping[m.note];
        if !IsMapped(target) then Stepped(t.(inFrame := frame, inPosition := 0), None)
        else if |t.queue| < OUT_MESSAGES_SIZE then
          Stepped(t.(inFrame := frame, inPosition := 0, queue := t.queue + [MapNote(m, target)]), None)
        else Panicked
  }

  /** The write branch of `midi_run`, taken when nothing was received: write
      the next byte of the current frame if the link is writable; else, once
      the frame is fully written, pop the oldest message and load its frame. */
  function Transmit(t: Transport, writable: bool): (r: StepResult)
    requires Valid(t)
    ensures r.Stepped? && Valid(r.transport)
    ensures r.transport.inFrame == t.inFrame && r.transport.inPosition == t.inPosition && r.transport.mapping == t.mapping
  {
    if writable && t.outPosition < t.outSize then
      Stepped(t.(outPosition := t.outPosition + 1), Some(t.outFrame[t.outPosition]))
    else if t.outPosition == t.outSize && |t.queue| != 0 then
      Stepped(WriteMessage(t.(queue := t.queue[1..]), t.queue[0]), None)
    else Stepped(t, None)
  }

  /** `midi_run`: read a byte if one is available; else write the next byte
      of the current frame if the link is writable; else, once the frame is
      fully written, pop the oldest message and load its frame. */
  function Run(t: Transport, input: Option<Byte>, writable: bool): (r: StepResult)
    requires Valid(t)
    ensures r.Stepped? ==> Valid(r.transport)
    ensures input.Some? ==> r == Receive(t, input.value)
    ensures input.None? ==> r.Stepped? && r.transport.inFrame == t.inFrame &&
                            r.transport.inPosition == t.inPosition && r.transport.mapping == t.mapping
    ensures r.Stepped? && r.written.Some? ==>
              input.None? && writable && t.outPosition < t.outSize &&
              r.written.value == t.outFrame[t.outPosition] &&
              r.transport == t.(outPosition := t.outPosition + 1)
    ensures input.None? && writable && t.outPosition < t.outSize ==> r.written.Some?
    ensures input.None? && r.transport.queue != t.queue ==>
              t.outPosition == t.outSize && t.queue != [] &&
              r.transport == WriteMessage(t.(queue := t.queue[1..]), t.queue[0])
    ensures input.None? && t.outPosition == t.outSize && t.queue != [] ==> r.transport.queue == t.queue[1..]
  {
    if input.Some? then Receive(t, input.value) else Transmit(t, writable)
  }

  // ---------------------------------------------------------------------------
  // Several steps

  /** Feeds received bytes one per step, stopping at a panic. */
  function Feed(t: Transport, bytes: seq<Byte>): (r: StepResult)
    requires Valid(t)
    ensures r.Stepped? ==> Valid(r.transport)
    decreases |bytes|
  {
    if bytes == [] then Stepped(t, None)
    else match Run(t, Some(bytes[0]), false)
      case Panicked => Panicked
      case Stepped(next, _) => Feed(next, bytes[1..])
  }

  /** Receiving a complete note frame from the start of the inbound frame
      forwards the mapped note, if the note is mapped, and restarts the frame. */
  lemma ReceiveNoteFrame(t: Transport, status: Byte, note: Byte, velocity: Byte)
    requires Valid(t) && t.inPosition == 0 && |t.queue| < OUT_MESSAGES_SIZE
    requires status == NOTE_ON || status == NOTE_OFF
    ensures var target := t.mapping[Low7(note)];
            var received := if status == NOTE_ON then NoteOn(0, Low7(note), Low7(velocity))
                            else NoteOff(0, Low7(note), Low7(velocity));
            var r := Feed(t, [status, note, velocity]);
            && r.Stepped? && r.transport.inPosition == 0
            && r.transport.queue == t.queue + (if IsMapped(target) then [MapNote(received, target)] else [])
  {
    var t1 := t.(inFrame := t.inFrame[0 := status], inPosition := 1);
    var t2 := t1.(inFrame := t1.inFrame[1 := note], inPosition := 2);
    assert Feed(t, [status, note, velocity]) == Feed(t1, [note, velocity]);
    assert Feed(t1, [note, velocity]) == Feed(t2, [velocity]);
    var frame := t2.inFrame[2 := velocity];
    assert frame == [status, note, velocity];
    var received := if status == NOTE_ON then NoteOn(0, Low7(note), Low7(velocity))
                    else NoteOff(0, Low7(note), Low7(velocity));
    assert DecodeFrame(frame) == Some(received);
    var r2 := Receive(t2, velocity);
    assert r2.Stepped?;
    assert Feed(t2, [velocity]) == Feed(r2.transport, []);
  }

  /** One stray byte before a note frame is absorbed by the shift resync: the
      note is forwarded exactly as if the stray byte had never arrived. */
  lemma StrayByteResyncs(t: Transport, stray: Byte, status: Byte, note: Byte, velocity: Byte)
    requires Valid(t) && t.inPosition == 0 && |t.queue| < OUT_MESSAGES_SIZE
    requires stray != NOTE_ON && stray != NOTE_OFF
    requires status == NOTE_ON || status == NOTE_OFF
    ensures Feed(t, [stray, status, note, velocity]).Stepped? && Feed(t, [status, note, velocity]).Stepped?
    ensures Feed(t, [stray, status, note, velocity]).transport.queue == Feed(t, [status, note, velocity]).transport.queue
    ensures Feed(t, [stray, status, note, velocity]).transport.inPosition == 0
  {
    var t1 := t.(inFrame := t.inFrame[0 := stray], inPosition := 1);
    var t2 := t1.(inFrame := t1.inFrame[1 := status], inPosition := 2);
    var t3 := t2.(inFrame := [status, note, note], inPosition := 2);
    assert Feed(t, [stray, status, note, velocity]) == Feed(t1, [status, note, velocity]);
    assert Feed(t1, [status, note, velocity]) == Feed(t2, [note, velocity]);
    assert Receive(t2, note) == Stepped(t3, None);
    assert Feed(t2, [note, velocity]) == Feed(t3, [velocity]);
    assert t3.inFrame[2 := velocity] == [status, note, velocity];
    var r3 := Receive(t3, velocity);
    assert r3.Stepped?;
    assert Feed(t3, [velocity]) == Feed(r3.transport, []);
    ReceiveNoteFrame(t, status, note, velocity);
  }

  /** A step on a busy link either changes nothing or pops the next message
      exactly as a step on a writable link would; only writing a frame byte
      waits for the link. */
  lemma BusyLinkStep(t: Transport)
    requires Valid(t)
    ensures var busy := Run(t, None, false);
            busy.Stepped? && busy.written.None?
    ensures var busy := Run(t, None, false);
            busy.transport == t || busy == Run(t, None, true)
    ensures t.outPosition == t.outSize ==> Run(t, None, false) == Run(t, None, true)
  {
  }

  /** What leaves on the wire while nothing is received and the link is
      always writable. */
  datatype Line = Line(transport: Transport, bytes: seq<Byte>)

  /** Runs `n` steps of `midi_run` with no input (so each is a `Transmit`) and
      a writable link, collecting the bytes
      written. */
  function Drain(t: Transport, n: nat): (r: Line)
    requires Valid(t)
    ensures Valid(r.transport)
    decreases n
  {
    if n == 0 then Line(t, [])
    else
      var step := Transmit(t, true);
      var rest := Drain(step.transport, n - 1);
      Line(rest.transport, (if step.written.Some? then [step.written.value] else []) + rest.bytes)
  }

  lemma {:induction false} DrainSplit(t: Transport, a: nat, b: nat)
    requires Valid(t)
    ensures Drain(t, a + b) == Line(Drain(Drain(t, a).transport, b).transport,
                                    Drain(t, a).bytes + Drain(Drain(t, a).transport, b).bytes)
    decreases a
  {
    if a > 0 {
      var step := Transmit(t, true);
      DrainSplit(step.transport, a - 1, b);
    }
  }

  /** Steps one message takes from the queue to the wire: a pop, then one
      step per byte of its frame. */
  function Steps(m: Message): nat
  {
    if WireFrame(m).Some? then 1 + FRAME else 1
  }

  function TotalSteps(q: seq<Message>): nat
  {
    if q == [] then 0 else Steps(q[0]) + TotalSteps(q[1..])
  }

  /** The wire bytes of a queue: the frames of its encodable messages, in
      queue order. */
  function WireBytes(q: seq<Message>): seq<Byte>
  {
    if q == [] then [] else (if WireFrame(q[0]).Some? then WireFrame(q[0]).value else []) + WireBytes(q[1..])
  }

  /** A loaded frame leaves on the wire in three writable steps. */
  lemma DrainFrame(t: Transport)
    requires Valid(t) && t.outPosition == 0 && t.outSize == FRAME
    ensures Drain(t, FRAME) == Line(t.(outPosition := FRAME), t.outFrame)
  {
    var f := t.outFrame;
    var t2 := t.(outPosition := 1);
    var t3 := t.(outPosition := 2);
    var t4 := t.(outPosition := 3);
    assert Transmit(t, true) == Stepped(t2, Some(f[0]));
    assert Transmit(t2, true) == Stepped(t3, Some(f[1]));
    assert Transmit(t3, true) == Stepped(t4, Some(f[2]));
    assert Drain(t3, 1) == Line(t4, [f[2]]);
    assert Drain(t2, 2) == Line(t4, [f[1], f[2]]);
  }

  /** One message: a pop followed by its frame's bytes. */
  lemma DrainOne(t: Transport)
    requires Valid(t) && t.outPosition == t.outSize && t.queue != []
    ensures Drain(t, Steps(t.queue[0])).transport.queue == t.queue[1..]
    ensures Drain(t, Steps(t.queue[0])).transport.outPosition == Drain(t, Steps(t.queue[0])).transport.outSize
    ensures Drain(t, Steps(t.queue[0])).bytes == if WireFrame(t.queue[0]).Some? then WireFrame(t.queue[0]).value else []
  {
    var m := t.queue[0];
    var t1 := WriteMessage(t.(queue := t.queue[1..]), m);
    assert Transmit(t, true) == Stepped(t1, None);
    if WireFrame(m).Some? {
      DrainFrame(t1);
      assert Drain(t, 1 + FRAME) == Line(t1.(outPosition := FRAME), t1.outFrame);
    } else {
      assert Drain(t, 1) == Line(t1, []);
    }
  }

  /** FIFO transmission: with the current frame fully written, nothing
      received and a writable link, the queue leaves the wire as the frames of
      its note and raw messages in queue order; other messages are dropped
      without a byte. */
  lemma {:induction false} DrainQueue(t: Transport)
    requires Valid(t) && t.outPosition == t.outSize
    ensures Drain(t, TotalSteps(t.queue)).bytes == WireBytes(t.queue)
    ensures Drain(t, TotalSteps(t.queue)).transport.queue == []
    decreases |t.queue|
  {
    if t.queue != [] {
      var k := Steps(t.queue[0]);
      DrainOne(t);
      DrainSplit(t, k, TotalSteps(t.queue[1..]));
      DrainQueue(Drain(t, k).transport);
    }
  }
}

=== FILE: sdhi.dfy ===
/** The control-value model: typed controls, the panel that selects which
    eight of them the encoders drive, and the rules that turn encoder deltas
    into new control values (clamping for integer and real controls, a
    hysteresis stepper for enumerations). Values live in one integer array
    indexed by control id, as in the firmware; an enumeration keeps a signed
    8-bit accumulator and a 24-bit option index packed in its entry. */
module Sdhi {
  import opened Base

  /** One option of an enumeration control: its label and the value an action
      resolves it to. */
  datatype EnumOption = EnumOption(name: string, value: int)

  /** The three control types. A real control counts steps: `minSteps` and
      `maxSteps` are its bounds divided by its step, truncated. */
  datatype ControlKind =
    | Integer(min: int, max: int, initial: int)
    | Real(minSteps: int, maxSteps: int)
    | Enumeration(options: seq<EnumOption>, initial: int)

  datatype Control = Control(id: nat, title: string, group: nat, kind: ControlKind)

  /** A page of eight control ids; `NONE` marks an empty slot. */
  datatype Panel = Panel(title: string, slots: seq<int>)

  datatype Config = Config(controls: seq<Control>, panels: seq<Panel>)

  /** The value array together with the module's current panel index. */
  datatype State = State(values: seq<int>, panel: nat)

  const SLOTS: nat := 8
  /** Index of the panel-selector delta in the delta vector. */
  const SELECTOR: nat := 8
  const NONE: int := -1
  /** 2^24: the packed enumeration keeps its index in the low 24 bits. */
  const INDEX_SPAN: int := 0x100_0000

  // ---------------------------------------------------------------------------
  // Clamping

  /** Adds `change` to `value` and clamps the sum to `[min, max]`: first raised
      to `min`, then lowered to `max`. */
  function Clamp(value: int, change: int, min: int, max: int): (r: int)
    ensures min <= max ==> min <= r <= max
    ensures min <= value + change <= max ==> r == value + change
    ensures min <= max && value + change < min ==> r == min
    ensures value + change > max ==> r == max
  {
    var raised := if value + change < min then min else value + change;
    if raised > max then max else raised
  }

  // ---------------------------------------------------------------------------
  // Packed enumeration values

  /** The accumulator of a packed value: bits 24..31 read as int8_t. */
  function Accumulator(v: int): (r: int)
    ensures -0x80 <= r < 0x80
  {
    Int8((v / INDEX_SPAN) % 0x100)
  }

  /** The option index of a packed value: its low 24 bits. */
  function Index(v: int): (r: int)
    ensures 0 <= r < INDEX_SPAN
  {
    v % INDEX_SPAN
  }

  /** Packs an accumulator and an index as `(acc << 24) + index`. */
  function Pack(acc: int, index: int): int
  {
    acc * INDEX_SPAN + index
  }

  /** Unpacking a packed value gives back both halves. */
  lemma PackRoundTrip(acc: int, index: int)
    requires -0x80 <= acc < 0x80
    requires 0 <= index < INDEX_SPAN
    ensures Accumulator(Pack(acc, index)) == acc
    ensures Index(Pack(acc, index)) == index
  {
    var v := Pack(acc, index);
    assert v / INDEX_SPAN == acc;
    assert (acc + 0x100) % 0x100 == (if acc < 0 then acc + 0x100 else acc);
  }

  /** The same packing at bit level: a 32-bit word whose top byte is the
      accumulator's two's-complement bits and whose low 24 bits are the index;
      shifting right by 24 and masking with 0xFF, or masking with 0xFFFFFF,
      recovers the two parts. */
  lemma PackBitsRoundTrip(acc: bv8, index: bv32)
    requires index < 0x100_0000
    ensures (((((acc as bv32) << 24) + index) >> 24) & 0xFF) as bv8 == acc
    ensures (((acc as bv32) << 24) + index) & 0xFF_FFFF == index
  {
  }

  /** The two halves of an enumeration entry. */
  datatype Dial = Dial(acc: int, index: int)

  /** One hysteresis step of an enumeration with `size` options. The delta is
      added to the int8_t accumulator; at the first option a negative
      accumulator, and at the last a positive one, are reset to 0; reaching
      +3 or -3 moves the index one option (clamped) and resets the
      accumulator. */
  function StepDial(size: int, d: Dial, change: int): (r: Dial)
    ensures -2 <= r.acc <= 2
    ensures 0 <= d.index <= size - 1 ==> 0 <= r.index <= size - 1
    ensures 0 <= d.index <= size - 1 ==> d.index - 1 <= r.index <= d.index + 1
    ensures d.index == 0 && Int8(d.acc + change) < 0 ==> r == Dial(0, 0)
    ensures d.index == size - 1 && Int8(d.acc + change) > 0 ==> r == Dial(0, size - 1)
  {
    var max := size - 1;
    var acc := Int8(d.acc + change);
    var acc := if d.index == 0 && acc < 0 then 0 else if d.index == max && acc > 0 then 0 else acc;
    if acc >= 3 then Dial(0, Clamp(d.index, 1, 0, max))
    else if acc <= -3 then Dial(0, Clamp(d.index, -1, 0, max))
    else Dial(acc, d.index)
  }

  /** Within the accumulator's window and away from int8_t wrap-around, the
      index moves up exactly when the accumulated ticks reach +3 below the last
      option, down exactly when they reach -3 above the first, and otherwise
      stays. */
  lemma StepDialThreshold(size: int, d: Dial, change: int)
    requires 0 <= d.index <= size - 1
    requires -2 <= d.acc <= 2 && -125 <= change <= 125
    ensures StepDial(size, d, change).index == d.index + 1 <==> d.acc + change >= 3 && d.index < size - 1
    ensures StepDial(size, d, change).index == d.index - 1 <==> d.acc + change <= -3 && d.index > 0
    ensures -3 < d.acc + change < 3 ==> StepDial(size, d, change) == Dial(
              if (d.index == 0 && d.acc + change < 0) || (d.index == size - 1 && d.acc + change > 0) then 0 else d.acc + change,
              d.index)
  {
  }

  /** `update_enumeration`: unpack, step, repack. */
  function UpdateEnumeration(size: int, value: int, change: int): (r: int)
    requires size <= INDEX_SPAN
    ensures Index(value) < size ==> -2 <= Accumulator(r) <= 2
    ensures Index(value) < size ==> Index(r) < size
    ensures Index(value) < size ==> Index(value) - 1 <= Index(r) <= Index(value) + 1
    ensures Index(value) < size ==>
              Dial(Accumulator(r), Index(r)) == StepDial(size, Dial(Accumulator(value), Index(value)), change)
  {
    var d := StepDial(size, Dial(Accumulator(value), Index(value)), change);
    assert Index(value) < size ==> Accumulator(Pack(d.acc, d.index)) == d.acc && Index(Pack(d.acc, d.index)) == d.index by {
      if Index(value) < size {
        PackRoundTrip(d.acc, d.index);
      }
    }
    Pack(d.acc, d.index)
  }

  /** Applying `n` equal deltas in a row. */
  function Turn(size: int, d: Dial, change: int, n: nat): Dial
  {
    if n == 0 then d else StepDial(size, Turn(size, d, change, n - 1), change)
  }

  /** Starting from a zero accumulator at index `i`, `n` successive `+1`
      deltas advance the index by `n / 3`, stopping at the last option;
      the accumulator holds the leftover ticks, or 0 once at the last option. */
  lemma {:induction false} TicksAdvanceEveryThird(size: int, i: int, n: nat)
    requires 0 <= i <= size - 1
    ensures Turn(size, Dial(0, i), 1, n).index == if i + n / 3 < size - 1 then i + n / 3 else size - 1
    ensures Turn(size, Dial(0, i), 1, n).acc == if i + n / 3 < size - 1 then n % 3 else 0
  {
    if n > 0 {
      TicksAdvanceEveryThird(size, i, n - 1);
    }
  }

  /** Three `+1` deltas below the last option advance exactly one option;
      one or two leave the index where it was. */
  lemma ThreeTicksOneOption(size: int, i: int)
    requires 0 <= i < size - 1
    ensures Turn(size, Dial(0, i), 1, 1) == Dial(1, i)
    ensures Turn(size, Dial(0, i), 1, 2) == Dial(2, i)
    ensures Turn(size, Dial(0, i), 1, 3) == Dial(0, i + 1)
  {
    TicksAdvanceEveryThird(size, i, 1);
    TicksAdvanceEveryThird(size, i, 2);
    TicksAdvanceEveryThird(size, i, 3);
  }

  /** Turning down at the first option never builds up a pending step. */
  lemma {:induction false} NoRunawayAtFirstOption(size: int, n: nat)
    requires size >= 1
    ensures Turn(size, Dial(0, 0), -1, n) == Dial(0, 0)
  {
    if n > 0 {
      NoRunawayAtFirstOption(size, n - 1);
    }
  }

  // ---------------------------------------------------------------------------
  // Controls

  /** Applies one delta to a value according to the control's type. */
  function UpdateControl(kind: ControlKind, value: int, change: int): (r: int)
    requires kind.Enumeration? ==> |kind.options| <= INDEX_SPAN
    ensures kind.Integer? && kind.min <= kind.max ==> kind.min <= r <= kind.max
    ensures kind.Real? && kind.minSteps <= kind.maxSteps ==> kind.minSteps <= r <= kind.maxSteps
    ensures kind.Enumeration? && Index(value) < |kind.options| ==> Index(r) < |kind.options|
    ensures kind.Integer? && kind.min <= kind.max ==>
              r == if value + change < kind.min then kind.min else if value + change > kind.max then kind.max else value + change
    ensures kind.Real? && kind.minSteps <= kind.maxSteps ==>
              r == if value + change < kind.minSteps then kind.minSteps
                   else if value + change > kind.maxSteps then kind.maxSteps else value + change
    ensures kind.Enumeration? && Index(value) < |kind.options| ==>
              Dial(Accumulator(r), Index(r)) == StepDial(|kind.options|, Dial(Accumulator(value), Index(value)), change)
  {
    match kind
    case Integer(min, max, _) => Clamp(value, change, min, max)
    case Real(minSteps, maxSteps) => Clamp(value, change, minSteps, maxSteps)
    case Enumeration(options, _) => UpdateEnumeration(|options|, value, change)
  }

  /** The value a control starts from: its initial value, or 0 for a real. */
  function InitialValue(kind: ControlKind): int
  {
    match kind
    case Integer(_, _, initial) => initial
    case Real(_, _) => 0
    case Enumeration(_, initial) => initial
  }

  /** The first control, at or after position `from`, whose id is `id`. */
  function FindFrom(controls: seq<Control>, id: int, from: nat): (r: Option<nat>)
    requires from <= |controls|
    decreases |controls| - from
    ensures r.Some? ==> from <= r.value < |controls| && controls[r.value].id == id
    ensures r.Some? ==> forall j :: from <= j < r.value ==> controls[j].id != id
    ensures r.None? ==> forall j :: from <= j < |controls| ==> controls[j].id != id
  {
    if from == |controls| then None
    else if controls[from].id == id then Some(from)
    else FindFrom(controls, id, from + 1)
  }

  /** `find_control`: the first control with the given id, or none. */
  function FindControl(controls: seq<Control>, id: int): (r: Option<Control>)
    ensures r.Some? ==> r.value in controls && r.value.id == id
    ensures r.None? <==> forall j :: 0 <= j < |controls| ==> controls[j].id != id
    ensures r.Some? ==> exists k :: 0 <= k < |controls| && controls[k] == r.value &&
                                   forall j :: 0 <= j < k ==> controls[j].id != id
  {
    match FindFrom(controls, id, 0)
    case None => None
    case Some(k) => Some(controls[k])
  }

  /** Every control id indexes an array of `n` values. */
  ghost predicate IdsIndex(config: Config, n: nat)
  {
    forall c :: c in config.controls ==> c.id < n
  }

  /** Every enumeration of the configuration fits the 24-bit index field. */
  ghost predicate EnumerationsFit(config: Config)
  {
    forall c :: c in config.controls && c.kind.Enumeration? ==> |c.kind.options| <= INDEX_SPAN
  }

  /** A configuration the firmware can run: unique ids, consistent bounds and
      initial values, at least one panel, eight slots per panel. */
  ghost predicate WellFormed(config: Config)
  {
    && (forall i, j :: 0 <= i < j < |config.controls| ==> config.controls[i].id != config.controls[j].id)
    && (forall c :: c in config.controls ==> KindWellFormed(c.kind))
    && |config.panels| >= 1
    && (forall p :: p in config.panels ==> |p.slots| == SLOTS)
  }

  ghost predicate KindWellFormed(kind: ControlKind)
  {
    match kind
    case Integer(min, max, initial) => min <= initial <= max
    case Real(minSteps, maxSteps) => minSteps <= maxSteps
    case Enumeration(options, initial) => 1 <= |options| <= INDEX_SPAN && 0 <= initial < |options|
  }

  /** The value invariant: integer values within their bounds, enumeration
      indices naming an option. Real values start at 0, which need not lie
      within their bounds, so they carry no invariant. */
  ghost predicate KindOk(kind: ControlKind, v: int)
  {
    match kind
    case Integer(min, max, _) => min <= v <= max
    case Real(_, _) => true
    case Enumeration(options, _) => Index(v) < |options|
  }

  ghost predicate ValuesOk(config: Config, values: seq<int>)
    requires IdsIndex(config, |values|)
  {
    forall c :: c in config.controls ==> KindOk(c.kind, values[c.id])
  }

  // ---------------------------------------------------------------------------
  // Applying a delta vector

  /** One slot of `update_values`: the control named by `id`, if any, moves by
      `change` unless `change` is 0. */
  function ApplySlot(config: Config, values: seq<int>, id: int, change: int): (r: seq<int>)
    requires IdsIndex(config, |values|) && EnumerationsFit(config)
    ensures |r| == |values|
  {
    match FindControl(config.controls, id)
    case None => values
    case Some(c) => if change == 0 then values else values[c.id := UpdateControl(c.kind, values[c.id], change)]
  }

  /** Slots `0 .. k-1` applied in order. */
  function ApplySlots(config: Config, slots: seq<int>, change: seq<int>, values: seq<int>, k: nat): (r: seq<int>)
    requires k <= |slots| && k <= |change|
    requires IdsIndex(config, |values|) && EnumerationsFit(config)
    ensures |r| == |values|
  {
    if k == 0 then values
    else ApplySlot(config, ApplySlots(config, slots, change, values, k - 1), slots[k - 1], change[k - 1])
  }

  /** `update_values`: the eight slot deltas move the controls of the current
      panel, then the ninth delta moves the panel selector. */
  function UpdateValues(config: Config, s: State, change: seq<int>): (r: State)
    requires |change| == SLOTS + 1
    requires s.panel < |config.panels| && |config.panels[s.panel].slots| == SLOTS
    requires IdsIndex(config, |s.values|) && EnumerationsFit(config)
    ensures |r.values| == |s.values|
    ensures r.panel < |config.panels|
    ensures change[SELECTOR] == 0 ==> r.panel == s.panel
    ensures 0 <= s.panel + change[SELECTOR] < |config.panels| ==> r.panel == s.panel + change[SELECTOR]
    ensures s.panel + change[SELECTOR] < 0 ==> r.panel == 0
    ensures s.panel + change[SELECTOR] >= |config.panels| ==> r.panel == |config.panels| - 1
  {
    var values := ApplySlots(config, config.panels[s.panel].slots, change, s.values, SLOTS);
    var panel := if change[SELECTOR] != 0 then Clamp(s.panel, change[SELECTOR], 0, |config.panels| - 1) else s.panel;
    State(values, panel)
  }

  /** The ids a delta vector may touch: controls found in the first `k` slots
      whose delta is non-zero. */
  function Touched(config: Config, slots: seq<int>, change: seq<int>, k: nat): set<nat>
    requires k <= |slots| && k <= |change|
  {
    if k == 0 then {}
    else
      var earlier := Touched(config, slots, change, k - 1);
      match FindControl(config.controls, slots[k - 1])
      case None => earlier
      case Some(c) => if change[k - 1] == 0 then earlier else earlier + {c.id}
  }

  lemma {:induction false} ApplySlotsFrame(config: Config, slots: seq<int>, change: seq<int>, values: seq<int>, k: nat)
    requires k <= |slots| && k <= |change|
    requires IdsIndex(config, |values|) && EnumerationsFit(config)
    ensures forall j :: 0 <= j < |values| && j !in Touched(config, slots, change, k) ==>
              ApplySlots(config, slots, change, values, k)[j] == values[j]
  {
    if k > 0 {
      ApplySlotsFrame(config, slots, change, values, k - 1);
    }
  }

  /** `update_values` writes only the entries of controls named by a slot of
      the panel current before the call whose delta is non-zero; empty and
      unknown slots touch nothing. */
  lemma UpdateValuesFrame(config: Config, s: State, change: seq<int>)
    requires |change| == SLOTS + 1
    requires s.panel < |config.panels| && |config.panels[s.panel].slots| == SLOTS
    requires IdsIndex(config, |s.values|) && EnumerationsFit(config)
    ensures forall j :: 0 <= j < |s.values| && j !in Touched(config, config.panels[s.panel].slots, change, SLOTS) ==>
              UpdateValues(config, s, change).values[j] == s.values[j]
  {
    ApplySlotsFrame(config, config.panels[s.panel].slots, change, s.values, SLOTS);
  }

  /** An empty slot never names a control, since ids are non-negative. */
  lemma EmptySlotFindsNothing(controls: seq<Control>)
    ensures FindControl(controls, NONE).None?
  {
  }

  lemma {:induction false} ApplySlotsKeepsRanges(config: Config, slots: seq<int>, change: seq<int>, values: seq<int>, k: nat)
    requires k <= |slots| && k <= |change|
    requires WellFormed(config) && IdsIndex(config, |values|)
    requires ValuesOk(config, values)
    ensures EnumerationsFit(config)
    ensures ValuesOk(config, ApplySlots(config, slots, change, values, k))
  {
    if k > 0 {
      ApplySlotsKeepsRanges(config, slots, change, values, k - 1);
      var prev := ApplySlots(config, slots, change, values, k - 1);
      match FindControl(config.controls, slots[k - 1])
      case None =>
      case Some(c) =>
        if change[k - 1] != 0 {
          var next := prev[c.id := UpdateControl(c.kind, prev[c.id], change[k - 1])];
          forall d | d in config.controls
            ensures KindOk(d.kind, next[d.id])
          {
            if d.id == c.id {
              UniqueIds(config, c, d);
            }
          }
        }
    }
  }

  /** Two controls of a well-formed configuration with the same id are the same control. */
  lemma UniqueIds(config: Config, c: Control, d: Control)
    requires WellFormed(config)
    requires c in config.controls && d in config.controls && c.id == d.id
    ensures c == d
  {
    var i :| 0 <= i < |config.controls| && config.controls[i] == c;
    var j :| 0 <= j < |config.controls| && config.controls[j] == d;
    if i < j {
      assert false;
    } else if j < i {
      assert false;
    }
  }

  /** Applying any delta vector keeps every integer value within its bounds
      and every enumeration index on an option. */
  lemma UpdateValuesKeepsRanges(config: Config, s: State, change: seq<int>)
    requires |change| == SLOTS + 1
    requires WellFormed(config) && s.panel < |config.panels|
    requires IdsIndex(config, |s.values|)
    requires ValuesOk(config, s.values)
    ensures EnumerationsFit(config)
    ensures ValuesOk(config, UpdateValues(config, s, change).values)
  {
    ApplySlotsKeepsRanges(config, config.panels[s.panel].slots, change, s.values, SLOTS);
  }

  /** When no control appears in two slots of the panel, each slot whose
      control is found and whose delta is non-zero moves that control's value
      by exactly one `UpdateControl` step from its value before the call. */
  lemma {:induction false} ApplySlotsEach(config: Config, slots: seq<int>, change: seq<int>, values: seq<int>, k: nat, i: nat)
    requires k <= |slots| && k <= |change| && i < k
    requires IdsIndex(config, |values|) && EnumerationsFit(config)
    requires forall a, b :: 0 <= a < b < |slots| && FindControl(config.controls, slots[a]).Some? ==> slots[a] != slots[b]
    requires FindControl(config.controls, slots[i]).Some? && change[i] != 0
    ensures var c := FindControl(config.controls, slots[i]).value;
            ApplySlots(config, slots, change, values, k)[c.id] == UpdateControl(c.kind, values[c.id], change[i])
  {
    var c := FindControl(config.controls, slots[i]).value;
    if i == k - 1 {
      ApplySlotsFrame(config, slots, change, values, k - 1);
      UntouchedBeforeSlot(config, slots, change, k - 1, i);
    } else {
      ApplySlotsEach(config, slots, change, values, k - 1, i);
      var prev := ApplySlots(config, slots, change, values, k - 1);
      match FindControl(config.controls, slots[k - 1])
      case None =>
      case Some(d) =>
        assert d.id != c.id by {
          assert slots[i] != slots[k - 1];
        }
    }
  }

  /** Slot `i`'s control is not touched by the slots before it when no control
      appears in two slots. */
  lemma {:induction false} UntouchedBeforeSlot(config: Config, slots: seq<int>, change: seq<int>, k: nat, i: nat)
    requires k <= i < |slots| && k <= |change|
    requires forall a, b :: 0 <= a < b < |slots| && FindControl(config.controls, slots[a]).Some? ==> slots[a] != slots[b]
    requires FindControl(config.controls, slots[i]).Some?
    ensures FindControl(config.controls, slots[i]).value.id !in Touched(config, slots, change, k)
  {
    if k > 0 {
      UntouchedBeforeSlot(config, slots, change, k - 1, i);
      match FindControl(config.controls, slots[k - 1])
      case None =>
      case Some(d) =>
        assert slots[k - 1] != slots[i];
    }
  }

  lemma UpdateValuesAppliesEachSlot(config: Config, s: State, change: seq<int>, i: nat)
    requires |change| == SLOTS + 1 && i < SLOTS
    requires s.panel < |config.panels| && |config.panels[s.panel].slots| == SLOTS
    requires IdsIndex(config, |s.values|) && EnumerationsFit(config)
    requires var slots := config.panels[s.panel].slots;
             forall a, b :: 0 <= a < b < |slots| && FindControl(config.controls, slots[a]).Some? ==> slots[a] != slots[b]
    requires FindControl(config.controls, config.panels[s.panel].slots[i]).Some? && change[i] != 0
    ensures var c := FindControl(config.controls, config.panels[s.panel].slots[i]).value;
            UpdateValues(config, s, change).values[c.id] == UpdateControl(c.kind, s.values[c.id], change[i])
  {
    ApplySlotsEach(config, config.panels[s.panel].slots, change, s.values, SLOTS, i);
  }

  // ---------------------------------------------------------------------------
  // Initialisation and accessors

  /** `sdhi_init`: the first panel is current. */
  function Init(values: seq<int>): (r: State)
    ensures r.panel == 0 && r.values == values
  {
    State(values, 0)
  }

  /** No two controls share an id. */
  ghost predicate DistinctIds(config: Config)
  {
    forall i, j :: 0 <= i < j < |config.controls| ==> config.controls[i].id != config.controls[j].id
  }

  /** `sdhi_init_values` over the first `k` controls, in order. */
  function InitValuesUpTo(config: Config, values: seq<int>, k: nat): (r: seq<int>)
    requires k <= |config.controls| && IdsIndex(config, |values|)
    ensures |r| == |values|
    ensures forall j :: 0 <= j < |values| && (forall i :: 0 <= i < k ==> config.controls[i].id != j) ==> r[j] == values[j]
    ensures forall j :: 0 <= j < |values| ==>
              r[j] == values[j] || exists i :: 0 <= i < k && config.controls[i].id == j && r[j] == InitialValue(config.controls[i].kind)
    ensures DistinctIds(config) ==>
              forall i :: 0 <= i < k ==> r[config.controls[i].id] == InitialValue(config.controls[i].kind)
  {
    if k == 0 then values
    else
      var c := config.controls[k - 1];
      InitValuesUpTo(config, values, k - 1)[c.id := InitialValue(c.kind)]
  }

  /** `sdhi_init_values`: every control's entry takes its initial value. */
  function InitValues(config: Config, values: seq<int>): (r: seq<int>)
    requires IdsIndex(config, |values|)
    ensures |r| == |values|
    ensures forall j :: 0 <= j < |values| && (forall c :: c in config.controls ==> c.id != j) ==> r[j] == values[j]
    ensures forall j :: 0 <= j < |values| ==>
              r[j] == values[j] || exists c :: c in config.controls && c.id == j && r[j] == InitialValue(c.kind)
    ensures DistinctIds(config) ==> forall c :: c in config.controls ==> r[c.id] == InitialValue(c.kind)
  {
    InitValuesUpTo(config, values, |config.controls|)
  }

  lemma {:induction false} InitValuesUpToSets(config: Config, values: seq<int>, k: nat)
    requires k <= |config.controls| && IdsIndex(config, |values|)
    requires forall i, j :: 0 <= i < j < |config.controls| ==> config.controls[i].id != config.controls[j].id
    ensures forall i :: 0 <= i < k ==>
              InitValuesUpTo(config, values, k)[config.controls[i].id] == InitialValue(config.controls[i].kind)
    ensures forall j :: 0 <= j < |values| && (forall i :: 0 <= i < k ==> config.controls[i].id != j) ==>
              InitValuesUpTo(config, values, k)[j] == values[j]
  {
    if k > 0 {
      InitValuesUpToSets(config, values, k - 1);
    }
  }

  /** With unique ids, initialisation gives integer and enumeration controls
      their initial value and real controls 0, and leaves every other entry
      alone. */
  lemma InitValuesSets(config: Config, values: seq<int>)
    requires IdsIndex(config, |values|)
    requires forall i, j :: 0 <= i < j < |config.controls| ==> config.controls[i].id != config.controls[j].id
    ensures forall c :: c in config.controls && c.kind.Integer? ==> InitValues(config, values)[c.id] == c.kind.initial
    ensures forall c :: c in config.controls && c.kind.Enumeration? ==> InitValues(config, values)[c.id] == c.kind.initial
    ensures forall c :: c in config.controls && c.kind.Real? ==> InitValues(config, values)[c.id] == 0
    ensures forall j :: 0 <= j < |values| && (forall c :: c in config.controls ==> c.id != j) ==>
              InitValues(config, values)[j] == values[j]
  {
    InitValuesUpToSets(config, values, |config.controls|);
  }

  /** Initialisation establishes the value invariant. */
  lemma InitValuesEstablishesRanges(config: Config, values: seq<int>)
    requires WellFormed(config) && IdsIndex(config, |values|)
    ensures ValuesOk(config, InitValues(config, values))
  {
    InitValuesSets(config, values);
  }

  /** `sdhi_integer`: the stored value of an integer control, which lies within
      its bounds whenever the value invariant holds. */
  function IntegerValue(config: Config, values: seq<int>, id: nat): (r: int)
    requires id < |values|
    ensures IdsIndex(config, |values|) && ValuesOk(config, values) &&
            FindControl(config.controls, id).Some? && FindControl(config.controls, id).value.kind.Integer? ==>
              FindControl(config.controls, id).value.kind.min <= r <= FindControl(config.controls, id).value.kind.max
  {
    values[id]
  }

  /** `sdhi_enumeration`: the value of the option an enumeration control
      currently selects. */
  function EnumerationValue(config: Config, values: seq<int>, id: nat): (r: int)
    requires id < |values|
    requires FindControl(config.controls, id).Some?
    requires FindControl(config.controls, id).value.kind.Enumeration?
    requires Index(values[id]) < |FindControl(config.controls, id).value.kind.options|
    ensures exists k :: 0 <= k < |FindControl(config.controls, id).value.kind.options| &&
                        FindControl(config.controls, id).value.kind.options[k].value == r
  {
    FindControl(config.controls, id).value.kind.options[Index(values[id])].value
  }

  /** Scenario: an integer control 0..127 at 100 saturates at 127 after +50
      and at 0 after -200. */
  lemma IntegerSaturates()
    ensures UpdateControl(Integer(0, 127, 0), 100, 50) == 127
    ensures UpdateControl(Integer(0, 127, 0), 127, -200) == 0
    ensures UpdateControl(Integer(0, 127, 0), 100, -30) == 70
  {
  }

  /** The hysteresis on the stored entry itself: from a packed entry at
      option `i` with a zero accumulator, the first two +1 deltas keep the
      option and the third moves to the next one. */
  lemma {:induction false} PackedThreeTicks(size: int, i: int)
    requires size <= INDEX_SPAN && 0 <= i < size - 1
    ensures var v1 := UpdateEnumeration(size, Pack(0, i), 1);
            var v2 := UpdateEnumeration(size, v1, 1);
            var v3 := UpdateEnumeration(size, v2, 1);
            && Index(v1) == i && Accumulator(v1) == 1
            && Index(v2) == i && Accumulator(v2) == 2
            && Index(v3) == i + 1 && Accumulator(v3) == 0
  {
    PackRoundTrip(0, i);
    ThreeTicksOneOption(size, i);
  }
}
